=== FILE: README.md ===
# Phone-shop catalogue, cart and order core in Dafny

A model of the decision-making core of the phone-accessories shop. It covers two services.

**Product service (Go).** The model covers the storage adapter and the validation layer over products and categories:
- the filtered, sorted and paginated product listing;
- free-text search;
- signed stock adjustment;
- soft delete;
- the category-delete guard that refuses while products still use the category;
- the ordered, short-circuiting checks of the product and category services.

**Order service (JavaScript routes).** The model covers the cart, order and payment routes:
- add-or-merge, set-quantity, remove and clear on a user's cart;
- creating an order from a cart, with the total and the emptied cart;
- the status enumeration;
- the state change a payment makes to the order and to its payment record.

The stores are in-memory values, and every operation is a pure function from the old store to a result:
- the products and categories tables are a sequence of rows plus the next identifier;
- carts, orders and payments are maps keyed by identifier.

Failures are `Result` values carrying an error kind and the message the source uses.

Modules, following the source's structure:

| module | file | models |
|---|---|---|
| `Results` | results.dfy | `Result`/`Option`, error kinds |
| `Seqs` | seqs.dfy | order-preserving filter (a `WHERE` clause), first index (`findIndex`), duplicate-freedom |
| `Text` | text.dfy | ASCII case folding, case-insensitive substring match (`ILIKE '%q%'`), code-point string order |
| `Models` | models.dfy | product, category, filter and page records; the tables and their schema invariants |
| `Pagination` | pagination.dfy | page normalisation, OFFSET/LIMIT slicing, ceiling division, laws about pages |
| `Ordering` | ordering.dfy | the ORDER BY key and a sort that realises it |
| `ProductRepository` | product_repository.dfy | `product_repository.go` |
| `ProductRepositoryLaws` | product_repository_laws.dfy | properties relating several product-repository calls |
| `CategoryRepository` | category_repository.dfy | `category_repository.go` |
| `ProductService`, `CategoryService` | product_service.dfy, category_service.dfy | the two Go services |
| `Cart` | cart.dfy | `cartRoutes.js` |
| `Orders` | orders.dfy | `orderRoutes.js` and the order schema |
| `Payments` | payments.dfy | `paymentRoutes.js` and the payment schema |

In these points the model follows the code:
- The SKU unique index (`models/product.go:15`) covers soft-deleted rows too, so a deleted product's SKU stays taken. The same holds for category names (`models/product.go:46`).
- A unique-index, primary-key or foreign-key violation is the store's own error (kind `Storage`), not a validation error.
- A product's `category_id` and a category's `parent_id` are foreign keys (`models/product.go:19`, `:49`). A soft-deleted row still satisfies them. The parent key is checked against the table with the written row in it, so a category may be its own parent.
- An insert with a non-zero identifier in the request keeps that identifier and leaves the sequence alone. An insert stores `isActive` true, because the column's default replaces Go's zero value.
- Update is GORM's `Save`, an upsert, and never reports "not found":
  - a zero identifier inserts;
  - otherwise every column of the visible row with the identifier is overwritten;
  - a soft-deleted row with the identifier is overwritten and brought back, as an insert would store it;
  - with no row at all, the row is inserted under its own identifier.
- No maximum page size is applied by the listing.
- Deleting an unknown product or category identifier succeeds and changes nothing.
- The category-delete count goes through the product model's soft-delete scope, so only visible products block a deletion.
- Two corrections are modelled next to the code as written; see "## Findings".
  - The listing's ORDER BY has no tie-breaker. `ProductRepository.ListWith` is the listing under any order the store may choose for one query. `ProductRepository.List` breaks ties by identifier.
  - The order number is generated after the schema has validated it. `Orders.CreateOrderAsWritten` is the route as written. `Orders.CreateOrder` generates the number first.

## Model

Source paths are relative to the repository root. `product-service/internal` is written out in full.

| member | source | states |
|---|---|---|
| Pagination.NormalizePage | product-service/internal/repository/product_repository.go:97-99 | a page below 1 becomes 1; any other page is kept |
| Pagination.NormalizePageSize | product-service/internal/repository/product_repository.go:100-102 | a page size below 1 becomes 20; any other size is kept, with no cap |
| Pagination.CeilDiv | product-service/internal/repository/product_repository.go:109 | the page count is the least r with n <= r*size: r pages hold n items, and r-1 pages do not |
| Pagination.CeilDivZero | product-service/internal/repository/product_repository.go:109 | no items means zero pages |
| Pagination.PageSlice | product-service/internal/repository/product_repository.go:103-105 | a page is at most pageSize long, its k-th item is item (page-1)*pageSize+k of the whole set, and its length is the clipped remainder |
| Pagination.PageSliceMembers | product-service/internal/repository/product_repository.go:103-105 | a page holds only items of the result set |
| Pagination.PageNonEmptyIff | product-service/internal/repository/product_repository.go:103-109 | a page is non-empty exactly when its number is at most the page count |
| Pagination.PageFullBeforeLast | product-service/internal/repository/product_repository.go:103-109 | every page before the last is full |
| Pagination.ItemOnItsPage | product-service/internal/repository/product_repository.go:103-105 | item i of the result set is on page i/size+1 at position i%size |
| Pagination.PageSliceBetween | product-service/internal/repository/product_repository.go:103-105 | page k is the run from (k-1)*size to k*size, clipped to the set |
| Pagination.PagesUpToIsPrefix | product-service/internal/repository/product_repository.go:103-105 | pages 1..k laid end to end are the first k*size items |
| Pagination.JoinedPages | product-service/internal/repository/product_repository.go:103-105 | a reader whose page j is the j-th slice reads the same items as the slices |
| Pagination.PagesCoverAll | product-service/internal/repository/product_repository.go:103-109 | pages 1..totalPages in order reassemble the whole result set |
| Pagination.ConsecutivePagesContiguous | product-service/internal/repository/product_repository.go:103-105 | page p followed by page p+1 is one contiguous run of the set |
| Pagination.PageSliceNoDup | product-service/internal/repository/product_repository.go:103-105 | a page of a duplicate-free set is duplicate-free |
| Pagination.PagesDisjoint | product-service/internal/repository/product_repository.go:103-105 | two different pages of a duplicate-free set share no item |
| Seqs.Filter | product-service/internal/repository/product_repository.go:62-78 | the selection keeps exactly the elements that satisfy the predicate, each as often as the input holds it, and drops every other element |
| Seqs.FilterConcat | product-service/internal/repository/product_repository.go:62-78 | filtering distributes over concatenation, so the kept elements stay in their input order |
| Seqs.OrderedUnique | product-service/internal/repository/product_repository.go:86-94 | two arrangements of the same elements, each ordered by a relation that never holds both ways round between different elements, are equal |
| Seqs.FilterFilter | product-service/internal/repository/product_repository.go:62-78 | adding a WHERE condition is filtering by the conjunction |
| Seqs.FirstIndex | order-service/src/routes/cartRoutes.js:90 | `findIndex`: the first position whose element satisfies the test, or none when no element does |
| Text.ContainsFoldIgnoresCase | product-service/internal/repository/product_repository.go:75-78 | the case-insensitive match ignores letter case in both the text and the pattern |
| Text.EmptyNeedleMatches | product-service/internal/repository/product_repository.go:123-126 | the pattern `%%` matches every string |
| Text.UpperDescIffLowerDesc | product-service/internal/repository/product_repository.go:88 | a direction upper-cases to "DESC" exactly when it lower-cases to "desc" |
| Ordering.LeqTotal | product-service/internal/repository/product_repository.go:86-94 | any two products are comparable under a sort key |
| Ordering.LeqTrans | product-service/internal/repository/product_repository.go:86-94 | the sort key's order is transitive in both directions |
| Ordering.BeforeTotal | product-service/internal/repository/product_repository.go:86-94 | under key-then-identifier any two products are comparable |
| Ordering.BeforeTrans | product-service/internal/repository/product_repository.go:86-94 | key-then-identifier is transitive |
| Ordering.ThenIdIsSorted | product-service/internal/repository/product_repository.go:86-94 | a sequence ordered by key then identifier is ordered by the key |
| Ordering.Sort | product-service/internal/repository/product_repository.go:86-94 | the result is a permutation of the input, ordered by the key, with ties in ascending identifier |
| Ordering.SortedSubrange | product-service/internal/repository/product_repository.go:103-105 | a contiguous run of an ordered sequence is ordered, so every page is |
| Ordering.SortMembers | product-service/internal/repository/product_repository.go:86-94 | sorting neither adds nor drops a product |
| ProductRepository.PageOf | product-service/internal/repository/product_repository.go:97-116 | page and size are normalised, totalPages is the ceiling of totalItems over the size, and the items are that page of the result set |
| ProductRepository.ListWith | product-service/internal/repository/product_repository.go:56-117 | for any arrangement the store may return (ordered by the key, a permutation of the filtered set): page and size are normalised; totalItems is the size of the whole filtered set; totalPages is its ceiling division; every item is a visible row meeting every present filter; items are ordered by the key; items are the requested page of that arrangement |
| ProductRepository.Ordered | product-service/internal/repository/product_repository.go:86-94 | the model's order is one the store may return, and it breaks ties by ascending identifier |
| ProductRepository.List | product-service/internal/repository/product_repository.go:56-117 | the same contract as ListWith, with the items the requested page of the filtered set ordered by key then identifier |
| ProductRepository.Search | product-service/internal/repository/product_repository.go:119-153 | the same paging contract, over visible rows whose name, description or SKU contains the query |
| ProductRepository.UpdateStock | product-service/internal/repository/product_repository.go:155-158 | the visible row with the identifier gains the signed delta, with no floor; every other row and column is unchanged |
| ProductRepository.Delete | product-service/internal/repository/product_repository.go:52-54 | exactly the visible row with the identifier becomes invisible; nothing else changes |
| ProductRepository.GetByID | product-service/internal/repository/product_repository.go:37-46 | found exactly when a visible row has the identifier; otherwise "product not found" |
| ProductRepository.Create | product-service/internal/repository/product_repository.go:33-35 | fails exactly when a value is wider than its column (name 255, SKU 50, image URL 255 characters), the identifier is held by any row, the SKU is held by any row, or the category does not exist, reported in that order (column widths, then the primary key, then the SKU index created after the table, then the foreign key); otherwise appends the product under the request's non-zero identifier or the next sequence value, with isActive true; the sequence advances only in the second case |
| ProductRepository.SaveTarget | product-service/internal/repository/product_repository.go:48-50 | the row a save overwrites holds the identifier; there is none exactly when no row holds it |
| ProductRepository.Update | product-service/internal/repository/product_repository.go:48-50 | a zero or unheld identifier behaves as Create; otherwise the save succeeds exactly when every value fits its column, no other row holds the SKU and the category exists; a too-wide value fails first in every case; a success overwrites only the target row (reviving a soft-deleted one); the only errors are the width, SKU, primary-key and foreign-key errors |
| ProductRepositoryLaws.SameCriteriaSameMatching | product-service/internal/repository/product_repository.go:62-78 | the filtered set does not depend on sort or paging parameters |
| ProductRepositoryLaws.TotalIndependentOfPagingAndSort | product-service/internal/repository/product_repository.go:80-83 | totalItems is the same for every page, page size and sort |
| ProductRepositoryLaws.NoItemsNoPages | product-service/internal/repository/product_repository.go:109 | no match gives zero items, zero pages and an empty page |
| ProductRepositoryLaws.ListAtPage | product-service/internal/repository/product_repository.go:103-105 | asking for page k returns the k-th slice of the ordered set |
| ProductRepositoryLaws.ListPagesArePages | product-service/internal/repository/product_repository.go:103-105 | under the identifier tie-break, listing pages 1..k in turn yields the slices 1..k |
| ProductRepositoryLaws.ListPagesReassemble | product-service/internal/repository/product_repository.go:97-109 | under the identifier tie-break, listing pages 1..totalPages in turn yields every match once, in order |
| ProductRepositoryLaws.OrderedNoDup | product-service/internal/repository/product_repository.go:60-94 | over a valid table the ordered result set repeats no product |
| ProductRepositoryLaws.ListPagesDisjoint | product-service/internal/repository/product_repository.go:103-105 | under the identifier tie-break, two different pages share no product |
| ProductRepositoryLaws.ListPageNonEmptyIff | product-service/internal/repository/product_repository.go:97-109 | a listing's page has items exactly when its page number is at most totalPages |
| ProductRepositoryLaws.NoTiesListingIsList | product-service/internal/repository/product_repository.go:86-105 | when the key ties no two matching rows, every arrangement the store may return is the model's order, so every listing call returns the same page as List |
| ProductRepositoryLaws.DefaultOrderHasNoTies | product-service/internal/repository/product_repository.go:92-94 | with no sort column the key never ties in a valid table |
| ProductRepositoryLaws.ThenIdListingIsList | product-service/internal/repository/product_repository.go:86-105 | in a valid table every arrangement ordered by key then identifier is the model's order, and its listing is List |
| ProductRepositoryLaws.TiedPagesRepeatAndSkip | product-service/internal/repository/product_repository.go:86-105 | two products of equal price, one per page: page 1 and page 2 may both return the same product, and the other is never listed |
| ProductRepositoryLaws.NoFiltersListsEveryVisible | product-service/internal/repository/product_repository.go:62-78 | with no filter present, the filtered set is every visible row |
| ProductRepositoryLaws.InStockKeepsPositiveStock | product-service/internal/repository/product_repository.go:72-74 | inStock=true keeps exactly the products with stock above zero |
| ProductRepositoryLaws.InStockFalseFiltersNothing | product-service/internal/repository/product_repository.go:72-74 | inStock=false filters the same as an absent flag |
| ProductRepositoryLaws.TextFilterIgnoresCase | product-service/internal/repository/product_repository.go:75-78 | the text filter ignores the query's letter case |
| ProductRepositoryLaws.ListIgnoresSku | product-service/internal/repository/product_repository.go:75-78 | the listing's filter never depends on the SKU |
| ProductRepositoryLaws.SearchFindsBySku | product-service/internal/repository/product_repository.go:123-126 | search finds a visible product whose SKU contains the query |
| ProductRepositoryLaws.SearchCoversListText | product-service/internal/repository/product_repository.go:123-126 | everything the listing's text filter finds, search finds too |
| ProductRepositoryLaws.SkuOnlyMatchExample | product-service/internal/repository/product_repository.go:75-78 | a product matching only by SKU is found by search but not by the listing |
| ProductRepositoryLaws.DescendingIff | product-service/internal/repository/product_repository.go:86-91 | descending exactly when a column is named and the direction is "desc" in any ASCII letter case |
| ProductRepositoryLaws.DistinctRowsDistinctIds | product-service/internal/models/product.go:11 | two different rows of a valid table have different identifiers |
| ProductRepositoryLaws.StrictlyAscendingIds | product-service/internal/repository/product_repository.go:92-94 | duplicate-free rows in identifier order have strictly ascending identifiers |
| ProductRepositoryLaws.DefaultOrderAscendingIds | product-service/internal/repository/product_repository.go:92-94 | with no sort column, a page lists strictly ascending identifiers |
| ProductRepositoryLaws.ExampleOrdered | product-service/internal/repository/product_repository.go:86-91 | products priced 10, 20, 30 listed by price descending come as 30, 20, 10 |
| ProductRepositoryLaws.ThreeItemsTwoPerPage | product-service/internal/repository/product_repository.go:97-109 | three matches two per page: page 1 has the first two, page 2 the third, two pages in all |
| ProductRepositoryLaws.UpdateStockRoundTrip | product-service/internal/repository/product_repository.go:155-158 | adding a delta and then its negation restores the table |
| ProductRepositoryLaws.UpdateStockAccumulates | product-service/internal/repository/product_repository.go:155-158 | two adjustments add up; no update is lost |
| ProductRepositoryLaws.UpdateStockCommutes | product-service/internal/repository/product_repository.go:155-158 | adjustments commute |
| ProductRepositoryLaws.DrainedProductLeavesInStockListing | product-service/internal/repository/product_repository.go:155-158 | draining a product's whole stock removes it from in-stock listings |
| ProductRepositoryLaws.UpdateStockThenGet | product-service/internal/repository/product_repository.go:155-158 | a lookup after an adjustment reports the stock moved by exactly the delta |
| ProductRepositoryLaws.DeleteThenGetFails | product-service/internal/repository/product_repository.go:52-54 | a deleted product can no longer be looked up |
| ProductRepositoryLaws.DeleteIdempotent | product-service/internal/repository/product_repository.go:52-54 | deleting twice is deleting once |
| ProductRepositoryLaws.DeleteKeepsOthers | product-service/internal/repository/product_repository.go:52-54 | deleting one product leaves every other lookup as it was |
| ProductRepositoryLaws.UpdateStockPreservesValid | product-service/internal/repository/product_repository.go:155-158 | stock moves keep identifiers and SKUs unique |
| ProductRepositoryLaws.DeletePreservesValid | product-service/internal/repository/product_repository.go:52-54 | soft delete keeps identifiers and SKUs unique |
| ProductRepositoryLaws.CreatePreservesValid | product-service/internal/repository/product_repository.go:33-35 | an insertion keeps the table valid, and the new row can be looked up under the identifier it was given |
| ProductRepositoryLaws.UpdatePreservesValid | product-service/internal/repository/product_repository.go:48-50 | a save keeps identifiers and SKUs unique |
| ProductRepositoryLaws.WritesKeepRowsFit | product-service/internal/models/product.go:10-25 | inserts, saves, stock moves and deletions keep every stored product within its name, SKU and image-URL widths |
| ProductRepositoryLaws.SkuWidthBoundary | product-service/internal/models/product.go:15 | a fifty-character SKU is stored and a fifty-one-character SKU is refused as too long |
| ProductRepositoryLaws.UpdateThenGet | product-service/internal/repository/product_repository.go:48-50 | after a save under a non-zero identifier, a lookup of it finds the saved columns, whether the row was visible, soft-deleted or absent; only isActive may read true where the row went through the insert |
| CategoryRepository.GetByID | product-service/internal/repository/category_repository.go:32-41 | found exactly when a visible row has the identifier; otherwise "category not found" |
| CategoryRepository.List | product-service/internal/repository/category_repository.go:61-67 | exactly the non-deleted categories, each as often as stored |
| CategoryRepository.ReferenceCountPositive | product-service/internal/repository/category_repository.go:49-56 | the count is positive exactly when some visible product is in the category |
| CategoryRepository.Delete | product-service/internal/repository/category_repository.go:47-59 | refused, with "cannot delete category with associated products", exactly when a visible product uses the category; otherwise exactly that category becomes invisible |
| CategoryRepository.Create | product-service/internal/repository/category_repository.go:28-30 | fails exactly when a value is wider than its column (name 100, image URL 255 characters), the identifier is held by any row, the name is held by any row, or the parent is named but held by no row of the table after the insert, reported in that order (column widths, then the primary key, then the name index created after the table, then the foreign key); otherwise appends under the request's non-zero identifier or the next sequence value |
| CategoryRepository.SaveTarget | product-service/internal/repository/category_repository.go:43-45 | the row a save overwrites holds the identifier; there is none exactly when no row holds it |
| CategoryRepository.Update | product-service/internal/repository/category_repository.go:43-45 | a zero or unheld identifier behaves as Create; otherwise the save succeeds exactly when every value fits its column, no other row holds the name and the parent exists after the write; a too-wide value fails first in every case; a success overwrites only the target row; the only errors are the width, name, primary-key and foreign-key errors |
| CategoryRepository.DeleteRemovesExactlyOne | product-service/internal/repository/category_repository.go:58 | after a deletion the listing is the old listing minus that category |
| CategoryRepository.DeleteThenGetFails | product-service/internal/repository/category_repository.go:32-41 | a deleted category can no longer be looked up |
| CategoryRepository.ProductInCategoryBlocksDelete | product-service/internal/repository/category_repository.go:49-56 | creating a product in a category makes deleting that category fail |
| CategoryRepository.DeletingProductsUnblocks | product-service/internal/repository/category_repository.go:49-58 | deleting the category's only product unblocks deleting the category |
| CategoryRepository.CreatePreservesValid | product-service/internal/repository/category_repository.go:28-30 | an insertion keeps identifiers and names unique, and the new row can be looked up |
| CategoryRepository.DeletePreservesValid | product-service/internal/repository/category_repository.go:47-59 | a deletion keeps the table valid |
| CategoryRepository.UpdatePreservesValid | product-service/internal/repository/category_repository.go:43-45 | a save keeps identifiers and names unique |
| CategoryRepository.UpdateThenGet | product-service/internal/repository/category_repository.go:43-45 | after a save under a non-zero identifier, a lookup of it finds the saved columns |
| CategoryRepository.WritesKeepRowsFit | product-service/internal/models/product.go:44-55 | inserts, saves and deletions keep every stored category within its name and image-URL widths |
| CategoryRepository.SelfParentAccepted | product-service/internal/models/product.go:48-49 | a new category whose values fit their columns may name its own identifier as its parent |
| ProductService.CreateProduct | product-service/internal/service/product_service.go:28-41 | name, then price, then SKU are checked and the first failure is reported; a validation error occurs exactly when the product is not acceptable; otherwise the repository decides, and a stored row is acceptable |
| ProductService.GetProductByID | product-service/internal/service/product_service.go:43-45 | forwards to the repository unchanged |
| ProductService.UpdateProduct | product-service/internal/service/product_service.go:47-57 | name, then price are checked; no SKU check; otherwise the repository decides |
| ProductService.DeleteProduct | product-service/internal/service/product_service.go:59-61 | forwards to the repository unchanged |
| ProductService.ListProducts | product-service/internal/service/product_service.go:63-65 | forwards to the repository unchanged |
| ProductService.UpdateStock | product-service/internal/service/product_service.go:67-69 | forwards to the repository unchanged |
| ProductService.FirstFailureWins | product-service/internal/service/product_service.go:30-38 | with an empty name, price and SKU do not affect the error |
| ProductService.UpdateSkipsSkuCheck | product-service/internal/service/product_service.go:47-57 | an empty SKU is refused by create but reaches the repository on update |
| ProductService.CreateKeepsAllAcceptable | product-service/internal/service/product_service.go:28-41 | a table built by the service holds only acceptable products |
| ProductService.UpdateStockKeepsAllAcceptable | product-service/internal/service/product_service.go:67-69 | stock moves keep every product acceptable |
| ProductService.DeleteKeepsAllAcceptable | product-service/internal/service/product_service.go:59-61 | deletions keep every product acceptable |
| CategoryService.CreateCategory | product-service/internal/service/category_service.go:27-33 | an empty name fails with "category name is required"; any other name goes to the repository unchanged; a stored row has a name |
| CategoryService.GetCategoryByID | product-service/internal/service/category_service.go:35-37 | forwards to the repository unchanged |
| CategoryService.UpdateCategory | product-service/internal/service/category_service.go:39-45 | an empty name fails; any other name goes to the repository unchanged |
| CategoryService.DeleteCategory | product-service/internal/service/category_service.go:47-49 | forwards to the repository unchanged |
| CategoryService.ListCategories | product-service/internal/service/category_service.go:51-53 | forwards to the repository unchanged |
| CategoryService.CreateKeepsAllNamed | product-service/internal/service/category_service.go:27-33 | creation through the service keeps every category named |
| CategoryService.UpdateKeepsAllNamed | product-service/internal/service/category_service.go:39-45 | updates through the service keep every category named |
| CategoryService.DeleteKeepsAllNamed | product-service/internal/service/category_service.go:47-49 | deletions keep every category named |
| Cart.IndexOf | order-service/src/routes/cartRoutes.js:90 | the first line for the product, or none exactly when the cart has no line for it |
| Cart.AddOrMerge | order-service/src/routes/cartRoutes.js:89-98 | a new product is appended as one line; an existing one gains the quantity at its line, and no other line changes |
| Cart.SetQuantity | order-service/src/routes/cartRoutes.js:154-160 | the product's first line takes the quantity, and no other line changes; "Item not found in cart" exactly when there is no line |
| Cart.RemoveLine | order-service/src/routes/cartRoutes.js:202-208 | the product's first line is cut out and every other line keeps its order; "Item not found in cart" exactly when there is no line |
| Cart.GetCart | order-service/src/routes/cartRoutes.js:23-38 | an existing cart is returned unchanged; a missing one is created empty and stored |
| Cart.AddItem | order-service/src/routes/cartRoutes.js:74-106 | "Missing required fields" exactly when a field fails the truthiness test; otherwise only that user's cart changes, by add-or-merge, and it is created if missing |
| Cart.UpdateItem | order-service/src/routes/cartRoutes.js:139-168 | a missing or below-1 quantity is refused first, then a missing cart, then a missing line with "Item not found in cart"; otherwise only that line's quantity changes |
| Cart.RemoveItem | order-service/src/routes/cartRoutes.js:192-216 | "Cart not found", then "Item not found in cart" exactly when the cart has no line for the product; otherwise only that line is removed |
| Cart.ClearCart | order-service/src/routes/cartRoutes.js:235-253 | "Cart not found" exactly when there is no cart; otherwise the cart is emptied and stays |
| Cart.AddOrMergeTotal | order-service/src/routes/cartRoutes.js:89-98 | adding raises the cart total by the quantity times the price of the line it lands on |
| Cart.RemoveLineTotal | order-service/src/routes/cartRoutes.js:202-208 | removing a line lowers the total by exactly that line's amount |
| Cart.AddOrMergeKeepsUnique | order-service/src/routes/cartRoutes.js:89-98 | adding keeps at most one line per product |
| Cart.AddOrMergeHasLine | order-service/src/routes/cartRoutes.js:89-98 | after adding, the product has a line |
| Cart.SetQuantityKeepsUnique | order-service/src/routes/cartRoutes.js:154-160 | setting a quantity keeps lines unique |
| Cart.RemoveLineKeepsUnique | order-service/src/routes/cartRoutes.js:202-208 | removing keeps lines unique and leaves no line for the product |
| Cart.AddTwiceMerges | order-service/src/routes/cartRoutes.js:89-98 | two additions of one product merge into one line of the summed quantity |
| Cart.AddThenRemove | order-service/src/routes/cartRoutes.js:89-98 | adding a new product and removing it restores the cart |
| Cart.SetQuantityIdempotent | order-service/src/routes/cartRoutes.js:154-160 | setting the same quantity twice is setting it once |
| Cart.AddItemKeepsUnique | order-service/src/routes/cartRoutes.js:74-106 | after a successful add, the user's cart has exactly one line per product, including this one |
| Cart.AddItemKeepsNamed | order-service/src/routes/cartRoutes.js:77-97 | a successful add keeps every line of every cart with a non-empty product identifier and name |
| Cart.UpdateAndRemoveKeepNamed | order-service/src/routes/cartRoutes.js:154-208 | setting a quantity or removing a line keeps every line named |
| Cart.ClearThenGet | order-service/src/routes/cartRoutes.js:239-245 | a cleared cart reads back as empty with total zero |
| Cart.GetCartStable | order-service/src/routes/cartRoutes.js:26-31 | a second get finds the cart the first stored |
| Cart.GetThenAdd | order-service/src/routes/cartRoutes.js:83-87 | the empty cart a read creates is the one an add starts from when no cart exists: reading first leaves the add's result unchanged, and the add starts from the lines the read returned |
| Orders.ParseStatus | order-service/src/routes/orderRoutes.js:168 | accepts exactly the four status names, each naming its own status |
| Orders.ParseMethod | order-service/src/models/Order.js:54-58 | accepts exactly the three payment-method names |
| Orders.StatusRoundTrip | order-service/src/routes/orderRoutes.js:168 | status names and statuses correspond one to one |
| Orders.MethodRoundTrip | order-service/src/models/Order.js:54-58 | method names and methods correspond one to one |
| Orders.ToOrderItems | order-service/src/routes/orderRoutes.js:50-52 | the order lines copy the cart lines one for one, in order |
| Orders.ToOrderItemsTotal | order-service/src/routes/orderRoutes.js:47-52 | the copied lines have the cart's total |
| Orders.OrderNumber | order-service/src/models/Order.js:83-91 | a generated order number is never empty |
| Orders.CreateOrderNumbered | order-service/src/routes/orderRoutes.js:31-72 | for a document holding a given number when validated: missing fields, then an empty or missing cart, then the schema's checks on save, reported as "Failed to create order"; success exactly when all pass (every line names its product and has a quantity of at least one) and the number is present and unused; the order copies the cart, totals price times quantity, is pending with payment pending; the cart is emptied; other orders are unchanged |
| Orders.CreateOrderAsWritten | order-service/src/routes/orderRoutes.js:31-72 | as written, creation never succeeds: missing fields, then an empty cart, and otherwise "Failed to create order" |
| Orders.CreateOrder | order-service/src/routes/orderRoutes.js:31-72 | with the number generated before validation: missing fields, then an empty or missing cart, then "Failed to create order"; success exactly when the method is known, every line has a non-empty product identifier and name and a quantity of at least one, and the generated number is unused; the order copies the cart, totals price times quantity, is pending with payment pending; the cart is emptied; other orders are unchanged |
| Orders.AsWrittenFailsWhereIntendedSucceeds | order-service/src/models/Order.js:25-29 | for a request that passes every check, the route as written fails with "Failed to create order" where the corrected creation stores the order |
| Orders.UpdateOrderStatus | order-service/src/routes/orderRoutes.js:163-186 | "Invalid status" unless one of the four, then "Order not found"; otherwise only that order's status changes |
| Orders.AnyStatusReachable | order-service/src/routes/orderRoutes.js:168-178 | any status may replace any other |
| Orders.CreatedOrderTotalMatchesItems | order-service/src/routes/orderRoutes.js:47-53 | a new order's total is the sum over its own lines |
| Orders.CreateOrderKeepsTotalsConsistent | order-service/src/routes/orderRoutes.js:47-61 | creation keeps every stored order's total equal to its lines' sum |
| Orders.UpdateOrderStatusKeepsTotalsConsistent | order-service/src/routes/orderRoutes.js:178-179 | status updates keep totals consistent |
| Orders.CreateOrderKeepsValid | order-service/src/routes/orderRoutes.js:50-61 | creation keeps every stored order valid: number, user and method present, every line with a non-empty product identifier and name and a quantity of at least one |
| Orders.UpdateOrderStatusKeepsValid | order-service/src/routes/orderRoutes.js:178-179 | status updates keep every stored order valid |
| Orders.SecondOrderFromSameCartFails | order-service/src/routes/orderRoutes.js:42-65 | ordering again from the same cart fails with "Cart is empty" |
| Orders.UnnamedLineFailsOnSave | order-service/src/models/Order.js:4-12 | a cart line with an empty product identifier or name makes creation fail on save, changing nothing |
| Orders.NamedCartItemsValid | order-service/src/models/Order.js:4-22 | for cart lines that all name their product, the schema's line checks hold exactly when every quantity is at least one |
| Orders.NonPositiveLineFailsOnSave | order-service/src/models/Order.js:17-21 | a cart line with quantity below one makes creation fail on save, changing nothing |
| Payments.Outcome | order-service/src/routes/paymentRoutes.js:54 | completed exactly on success, failed exactly otherwise |
| Payments.TransactionId | order-service/src/models/Payment.js:53-60 | a generated transaction identifier is never empty |
| Payments.ProcessPayment | order-service/src/routes/paymentRoutes.js:31-82 | missing fields, then an unknown order, then the schema's checks on save, reported as "Failed to process payment"; success exactly when the method is known and the transaction identifier is unused; the record charges the order's total in USD with the outcome and transaction; the order gets the outcome and transaction, and status processing on success only; nothing else changes |
| Payments.RecordAndOrderAgree | order-service/src/routes/paymentRoutes.js:54-62 | the record and the order agree on the outcome and the transaction |
| Payments.AmountIsItemsTotal | order-service/src/routes/paymentRoutes.js:50-52 | the amount charged is the sum over the order's lines |
| Payments.SuccessOverridesAnyStatus | order-service/src/routes/paymentRoutes.js:64-67 | a successful charge moves even a cancelled order to processing |
| Payments.PaidOrderChargedAgain | order-service/src/routes/paymentRoutes.js:40-69 | an order already paid can be charged again, leaving two completed payments |
| Payments.ProcessPaymentKeepsInvariants | order-service/src/routes/paymentRoutes.js:61-69 | processing keeps every order valid and its total consistent |

## Left out

- HTTP handlers, routing, status codes and JSON envelopes: an error kind and message stand for the response.
- Database and document-store failures: these are connection errors and the like, which the routes report as 500. Only the failures that the model's own checks decide are modelled; these include the key checks and the `varchar` column widths.
- ProductRepository.Create, ProductRepository.Update, CategoryRepository.Create, CategoryRepository.Update: PostgreSQL truncates a value that is too long for its column when every extra character is a space, and stores it. The model refuses every value longer than its column. Widths count characters, as PostgreSQL does.
- Bootstrap, configuration, seeding and the page-size maximum, which the listing never applies.
- Preloading a product's category or a category's parent: this is presentation data with no effect on results.
- Timestamps and the free-form attribute map.
- Prices, amounts and price bounds are whole cents (`int`). The source uses `float64` and JavaScript numbers. `math.Ceil` over floats is modelled as exact integer ceiling division.
- The source's machine integers (`uint` identifiers, `int` page arithmetic, `int64` counts) are unbounded here. Offset overflow for huge page numbers is not modelled.
- Text.ContainsFold: `ILIKE` is modelled as a plain case-insensitive substring match with ASCII folding only. The `%` and `_` characters inside a query are not treated as wildcards. Unicode case folding is not modelled.
- ProductRepository.KeyOf, ProductRepositoryLaws.DescendingIff: the direction is upper-cased in ASCII only. Go's `strings.ToUpper` also maps some non-ASCII letters to ASCII ones (the long s `ſ` becomes `S`), so a direction such as "deſc" sorts descending in the source and ascending in the model.
- Ordering.Sort: text columns are ordered by code point, because database collations are not modelled.
- Ordering.Sort: `sortBy` ranges over the known product columns. An arbitrary column name is not modelled.
- ProductRepository.Search: the query sets no order, so the model returns matches in table order.
- ProductRepository.Create, ProductRepository.Update, CategoryRepository.Create, CategoryRepository.Update: a category or parent record nested in the request is not written. GORM would upsert such an association first.
- ProductRepository.Create, CategoryRepository.Create: a failed insert that drew its identifier from the sequence still uses up that value in PostgreSQL. The model advances `nextId` only on success. Only the identifiers of later rows differ.
- ProductRepository.Create, CategoryRepository.Create: the store's messages for key violations are paraphrased as constants. Only the error kind and which check failed are modelled.
- Concurrency: the check-then-act race in category deletion and the atomicity of stock increments. Every operation is one atomic step.
- Randomness and the clock are parameters:
  - whether a payment succeeds;
  - the order number and transaction identifier, made from the time and a random number;
  - the document identifiers of new orders and payments.
  The model requires fresh document identifiers. The order number is "ORD-" and the transaction identifier "TXN-" followed by the generated digits, given as a parameter.
- The order and payment lookup routes, which only read: order by id, orders by user, payment by id, payments by order.
- The cart's own document schema (`models/Cart.js`) is not part of this model. Cart lines are stored as the route builds them.
- JavaScript coercions on request bodies: numeric strings, `NaN`, and a quantity sent as text. A field is a typed value, and absent, `null` and empty are one case.
- Malformed document identifiers, which the store rejects with a cast error (500).
- Payments.ProcessPayment, Orders.UpdateOrderStatus: re-saving the order also runs the order schema's checks. The model does not repeat them. `Payments.ProcessPaymentKeepsInvariants` and `Orders.UpdateOrderStatusKeepsValid` show that they cannot fail for an order that was valid before.

## Findings

| source | as written | input that shows it | evidently intended | confidence | as-written member | corrected member |
|---|---|---|---|---|---|---|
| order-service/src/models/Order.js:83-91 | `orderNumber` is required (lines 25-29), but it is generated in a `pre('save')` hook, and Mongoose validates a document before its `pre('save')` hooks run; the route never sets the number (`orderRoutes.js:50-61`) | any request with all fields and a non-empty cart whose lines are valid: validation fails on the missing number and the route answers 500 "Failed to create order" | the number is generated before validation (for example in a `pre('validate')` hook), so such a request stores the order | high, from the documented Mongoose hook order; not executed | Orders.CreateOrderAsWritten | Orders.CreateOrder, with Orders.AsWrittenFailsWhereIntendedSucceeds |
| product-service/internal/repository/product_repository.go:86-94 | the listing orders by the requested column alone, and each page is a separate query, so rows with equal keys may come in a different order on each call | two products priced 10, listed by price one per page: page 1 may return the first and page 2 the first again, and the second is never listed | ties broken by identifier (`ORDER BY column, id`), so the pages of one listing partition the matches | medium: PostgreSQL leaves the order of ties unspecified, and whether it varies between calls depends on the plan; not executed | ProductRepositoryLaws.TiedPagesRepeatAndSkip, over ProductRepository.ListWith | ProductRepository.List, with ProductRepositoryLaws.ThenIdListingIsList |

=== FILE: cart.dfy ===
/** Shopping carts: one list of line items per user, with add-or-merge, set
    quantity, remove and clear.

    A line's price and quantity are whole numbers (prices in cents). The request
    fields `productId` and `name` are strings in which the empty string stands
    for both "absent" and "empty", since every check treats the two alike; the
    numeric fields, whose checks tell "absent" from zero, are options. */
module Cart {
  import opened Results
  import Seqs

  const MissingFields: string := "Missing required fields"
  const InvalidQuantity: string := "Invalid quantity"
  const CartNotFound: string := "Cart not found"
  const ItemNotFound: string := "Item not found in cart"

  datatype CartItem = CartItem(
    productId: string,
    name: string,
    price: int,
    quantity: int,
    imageUrl: Option<string>)

  /** Every user's cart, by user identifier. */
  type Carts = map<string, seq<CartItem>>

  /** The body of an add-item request. */
  datatype AddItemRequest = AddItemRequest(
    productId: string,
    name: string,
    price: Option<int>,
    quantity: Option<int>,
    imageUrl: Option<string>)

  // ---------------------------------------------------------------------------
  // Line items

  predicate IsFor(item: CartItem, productId: string) {
    item.productId == productId
  }

  function For(productId: string): CartItem -> bool {
    item => IsFor(item, productId)
  }

  /** The position of the first line for the product. */
  function IndexOf(items: seq<CartItem>, productId: string): (r: Option<nat>)
    ensures r.Some? ==> r.value < |items| && items[r.value].productId == productId
    ensures r.Some? ==> forall j :: 0 <= j < r.value ==> items[j].productId != productId
    ensures r.None? <==> forall j :: 0 <= j < |items| ==> items[j].productId != productId
  {
    Seqs.FirstIndex(items, For(productId))
  }

  /** At most one line per product. */
  predicate UniqueProducts(items: seq<CartItem>) {
    forall i, j :: 0 <= i < j < |items| ==> items[i].productId != items[j].productId
  }

  /** A line for a product already in the cart gains the added quantity and keeps
      its own name, price and image; a new product is appended as a new line. */
  function AddOrMerge(items: seq<CartItem>, item: CartItem): (r: seq<CartItem>)
    ensures IndexOf(items, item.productId).None? ==> r == items + [item]
    ensures IndexOf(items, item.productId).Some? ==>
      var k := IndexOf(items, item.productId).value;
      && |r| == |items|
      && r[k] == items[k].(quantity := items[k].quantity + item.quantity)
      && forall j :: 0 <= j < |items| && j != k ==> r[j] == items[j]
  {
    match IndexOf(items, item.productId)
    case None => items + [item]
    case Some(k) => items[k := items[k].(quantity := items[k].quantity + item.quantity)]
  }

  /** The line for the product takes the new quantity. */
  function SetQuantity(items: seq<CartItem>, productId: string, quantity: int): (r: Result<seq<CartItem>>)
    ensures r.Err? <==> forall j :: 0 <= j < |items| ==> items[j].productId != productId
    ensures r.Err? ==> r.error == Error(NotFound, ItemNotFound)
    ensures r.Ok? ==>
      var k := IndexOf(items, productId).value;
      && |r.value| == |items|
      && r.value[k] == items[k].(quantity := quantity)
      && forall j :: 0 <= j < |items| && j != k ==> r.value[j] == items[j]
  {
    match IndexOf(items, productId)
    case None => Fail(NotFound, ItemNotFound)
    case Some(k) => Ok(items[k := items[k].(quantity := quantity)])
  }

  /** Removes the first line for the product. */
  function RemoveLine(items: seq<CartItem>, productId: string): (r: Result<seq<CartItem>>)
    ensures r.Err? <==> forall j :: 0 <= j < |items| ==> items[j].productId != productId
    ensures r.Err? ==> r.error == Error(NotFound, ItemNotFound)
    ensures r.Ok? ==>
      var k := IndexOf(items, productId).value;
      |r.value| == |items| - 1 && r.value == items[..k] + items[k + 1..]
  {
    match IndexOf(items, productId)
    case None => Fail(NotFound, ItemNotFound)
    case Some(k) => Ok(items[..k] + items[k + 1..])
  }

  // ---------------------------------------------------------------------------
  // The cart routes

  /** A user's cart; a user without one gets a new empty cart, which is stored. */
  function GetCart(carts: Carts, userId: string): (r: (Carts, seq<CartItem>))
    ensures userId in r.0 && r.0[userId] == r.1
    ensures userId in carts ==> r.0 == carts
    ensures userId !in carts ==> r.1 == [] && r.0 == carts[userId := []]
  {
    if userId in carts then (carts, carts[userId]) else (carts[userId := []], [])
  }

  /** The add-item request's validation, as the route's truthiness test reads
      it: product and name must be non-empty, the price present (zero and
      negative prices pass), the quantity present and non-zero (a negative
      quantity passes). */
  predicate AddRequestValid(req: AddItemRequest) {
    req.productId != "" && req.name != "" && req.price.Some?
    && req.quantity.Some? && req.quantity.value != 0
  }

  /** The line an add-item request describes. */
  function LineOf(req: AddItemRequest): CartItem
    requires req.price.Some? && req.quantity.Some?
  {
    CartItem(req.productId, req.name, req.price.value, req.quantity.value, req.imageUrl)
  }

  /** Adds a line to the user's cart, creating the cart if there is none. */
  function AddItem(carts: Carts, userId: string, req: AddItemRequest): (r: Result<Carts>)
    ensures r.Err? <==> !AddRequestValid(req)
    ensures r.Err? ==> r.error == Error(Validation, MissingFields)
    ensures r.Ok? ==> r.value.Keys == carts.Keys + {userId}
    ensures r.Ok? ==> forall u :: u in carts && u != userId ==> r.value[u] == carts[u]
    ensures r.Ok? ==>
      r.value[userId] == AddOrMerge(if userId in carts then carts[userId] else [], LineOf(req))
  {
    if !AddRequestValid(req) then Fail(Validation, MissingFields)
    else
      var items := if userId in carts then carts[userId] else [];
      Ok(carts[userId := AddOrMerge(items, LineOf(req))])
  }

  /** Sets a line's quantity. The quantity check comes before the lookups. */
  function UpdateItem(carts: Carts, userId: string, productId: string, quantity: Option<int>): (r: Result<Carts>)
    ensures (quantity.None? || quantity.value < 1) ==> r == Err(Error(Validation, InvalidQuantity))
    ensures quantity.Some? && quantity.value >= 1 && userId !in carts ==> r == Err(Error(NotFound, CartNotFound))
    ensures r.Ok? ==>
      && quantity.Some? && quantity.value >= 1 && userId in carts
      && SetQuantity(carts[userId], productId, quantity.value).Ok?
      && r.value == carts[userId := SetQuantity(carts[userId], productId, quantity.value).value]
    ensures quantity.Some? && quantity.value >= 1 && userId in carts ==>
      (r.Err? <==> SetQuantity(carts[userId], productId, quantity.value).Err?)
    ensures quantity.Some? && quantity.value >= 1 && userId in carts
      && SetQuantity(carts[userId], productId, quantity.value).Err?
      ==> r == Err(Error(NotFound, ItemNotFound))
  {
    if quantity.None? || quantity.value < 1 then Fail(Validation, InvalidQuantity)
    else if userId !in carts then Fail(NotFound, CartNotFound)
    else
      var items :- SetQuantity(carts[userId], productId, quantity.value);
      Ok(carts[userId := items])
  }

  /** Removes a line from the user's cart. */
  function RemoveItem(carts: Carts, userId: string, productId: string): (r: Result<Carts>)
    ensures userId !in carts ==> r == Err(Error(NotFound, CartNotFound))
    ensures userId in carts ==> (r.Err? <==> RemoveLine(carts[userId], productId).Err?)
    ensures userId in carts && RemoveLine(carts[userId], productId).Err?
      ==> r == Err(Error(NotFound, ItemNotFound))
    ensures r.Ok? ==>
      && userId in carts
      && RemoveLine(carts[userId], productId).Ok?
      && r.value == carts[userId := RemoveLine(carts[userId], productId).value]
  {
    if userId !in carts then Fail(NotFound, CartNotFound)
    else
      var items :- RemoveLine(carts[userId], productId);
      Ok(carts[userId := items])
  }

  /** Empties the user's cart; the cart itself stays. */
  function ClearCart(carts: Carts, userId: string): (r: Result<Carts>)
    ensures r.Err? <==> userId !in carts
    ensures r.Err? ==> r.error == Error(NotFound, CartNotFound)
    ensures r.Ok? ==> r.value == carts[userId := []]
  {
    if userId !in carts then Fail(NotFound, CartNotFound)
    else Ok(carts[userId := []])
  }

  // ---------------------------------------------------------------------------
  // Totals

  function LineTotal(item: CartItem): int {
    item.price * item.quantity
  }

  /** The sum of price times quantity over the lines. */
  function Total(items: seq<CartItem>): int {
    if |items| == 0 then 0 else LineTotal(items[0]) + Total(items[1..])
  }

  lemma {:induction false} TotalAppend(items: seq<CartItem>, item: CartItem)
    ensures Total(items + [item]) == Total(items) + LineTotal(item)
  {
    if |items| > 0 {
      assert (items + [item])[1..] == items[1..] + [item];
      TotalAppend(items[1..], item);
    }
  }

  lemma {:induction false} TotalConcat(xs: seq<CartItem>, ys: seq<CartItem>)
    ensures Total(xs + ys) == Total(xs) + Total(ys)
  {
    if |xs| == 0 {
      assert xs + ys == ys;
    } else {
      assert (xs + ys)[1..] == xs[1..] + ys;
      TotalConcat(xs[1..], ys);
    }
  }

  lemma {:induction false} TotalReplace(items: seq<CartItem>, k: nat, item: CartItem)
    requires k < |items|
    ensures Total(items[k := item]) == Total(items) - LineTotal(items[k]) + LineTotal(item)
  {
    if k > 0 {
      assert items[k := item][1..] == items[1..][k - 1 := item];
      TotalReplace(items[1..], k - 1, item);
    }
  }

  /** Adding grows the total by the added quantity at the line's price: the
      request's price for a new line, the price already in the cart on a merge. */
  lemma AddOrMergeTotal(items: seq<CartItem>, item: CartItem)
    ensures IndexOf(items, item.productId).None? ==>
      Total(AddOrMerge(items, item)) == Total(items) + item.price * item.quantity
    ensures IndexOf(items, item.productId).Some? ==>
      Total(AddOrMerge(items, item))
        == Total(items) + items[IndexOf(items, item.productId).value].price * item.quantity
  {
    match IndexOf(items, item.productId)
    case None => TotalAppend(items, item);
    case Some(k) =>
      var merged := items[k].(quantity := items[k].quantity + item.quantity);
      TotalReplace(items, k, merged);
      assert LineTotal(merged) == LineTotal(items[k]) + items[k].price * item.quantity by {
        assert items[k].price * (items[k].quantity + item.quantity)
            == items[k].price * items[k].quantity + items[k].price * item.quantity;
      }
  }

  /** Removing a line takes exactly its price times quantity off the total. */
  lemma RemoveLineTotal(items: seq<CartItem>, productId: string)
    requires RemoveLine(items, productId).Ok?
    ensures Total(RemoveLine(items, productId).value)
         == Total(items) - LineTotal(items[IndexOf(items, productId).value])
  {
    var k := IndexOf(items, productId).value;
    assert items == items[..k] + [items[k]] + items[k + 1..];
    TotalConcat(items[..k] + [items[k]], items[k + 1..]);
    TotalAppend(items[..k], items[k]);
    TotalConcat(items[..k], items[k + 1..]);
  }

  // ---------------------------------------------------------------------------
  // Invariants and round trips

  /** The first line for the product is at `k` when it is for the product and
      no earlier line is. */
  lemma IndexOfAt(items: seq<CartItem>, productId: string, k: nat)
    requires k < |items| && items[k].productId == productId
    requires forall j :: 0 <= j < k ==> items[j].productId != productId
    ensures IndexOf(items, productId) == Some(k)
  {
  }

  /** Adding keeps at most one line per product. */
  lemma AddOrMergeKeepsUnique(items: seq<CartItem>, item: CartItem)
    requires UniqueProducts(items)
    ensures UniqueProducts(AddOrMerge(items, item))
  {
  }

  /** After adding, the product has a line. */
  lemma AddOrMergeHasLine(items: seq<CartItem>, item: CartItem)
    ensures IndexOf(AddOrMerge(items, item), item.productId).Some?
  {
    var r := AddOrMerge(items, item);
    if IndexOf(items, item.productId).None? {
      assert r[|items|].productId == item.productId;
    } else {
      var k := IndexOf(items, item.productId).value;
      assert r[k].productId == item.productId;
    }
  }

  lemma SetQuantityKeepsUnique(items: seq<CartItem>, productId: string, quantity: int)
    requires UniqueProducts(items) && SetQuantity(items, productId, quantity).Ok?
    ensures UniqueProducts(SetQuantity(items, productId, quantity).value)
  {
  }

  /** Removing keeps lines unique; with unique lines, no line for the product is
      left. */
  lemma RemoveLineKeepsUnique(items: seq<CartItem>, productId: string)
    requires UniqueProducts(items) && RemoveLine(items, productId).Ok?
    ensures UniqueProducts(RemoveLine(items, productId).value)
    ensures forall j :: 0 <= j < |RemoveLine(items, productId).value| ==>
      RemoveLine(items, productId).value[j].productId != productId
  {
    var k := IndexOf(items, productId).value;
    var r := RemoveLine(items, productId).value;
    assert forall j :: 0 <= j < |r| ==> r[j] == items[if j < k then j else j + 1];
  }

  /** Two additions of the same product merge into one of the summed quantity. */
  lemma AddTwiceMerges(items: seq<CartItem>, item: CartItem, a: int, b: int)
    ensures AddOrMerge(AddOrMerge(items, item.(quantity := a)), item.(quantity := b))
         == AddOrMerge(items, item.(quantity := a + b))
  {
    var once := AddOrMerge(items, item.(quantity := a));
    match IndexOf(items, item.productId)
    case None =>
      IndexOfAt(once, item.productId, |items|);
    case Some(k) =>
      IndexOfAt(once, item.productId, k);
  }

  /** Adding a product that is not in the cart and then removing it restores the
      cart. */
  lemma AddThenRemove(items: seq<CartItem>, item: CartItem)
    requires IndexOf(items, item.productId).None?
    ensures RemoveLine(AddOrMerge(items, item), item.productId) == Ok(items)
  {
    var added := items + [item];
    IndexOfAt(added, item.productId, |items|);
    assert added[..|items|] + added[|items| + 1..] == items;
  }

  /** Setting the same quantity twice is the same as setting it once. */
  lemma SetQuantityIdempotent(items: seq<CartItem>, productId: string, quantity: int)
    requires SetQuantity(items, productId, quantity).Ok?
    ensures SetQuantity(SetQuantity(items, productId, quantity).value, productId, quantity)
         == SetQuantity(items, productId, quantity)
  {
    var k := IndexOf(items, productId).value;
    var once := SetQuantity(items, productId, quantity).value;
    IndexOfAt(once, productId, k);
    assert once[k := once[k].(quantity := quantity)] == once;
  }

  /** Every line names its product: a non-empty identifier and name. */
  predicate LinesNamed(items: seq<CartItem>) {
    forall i :: 0 <= i < |items| ==> items[i].productId != "" && items[i].name != ""
  }

  /** Every cart's lines name their product. */
  predicate AllNamed(carts: Carts) {
    forall u :: u in carts ==> LinesNamed(carts[u])
  }

  /** Adding keeps every line named: the request's product and name pass the
      route's truthiness test before the line is built. */
  lemma AddItemKeepsNamed(carts: Carts, userId: string, req: AddItemRequest)
    requires AllNamed(carts) && AddItem(carts, userId, req).Ok?
    ensures AllNamed(AddItem(carts, userId, req).value)
  {
    var items := if userId in carts then carts[userId] else [];
    var r := AddOrMerge(items, LineOf(req));
    forall i | 0 <= i < |r| ensures r[i].productId != "" && r[i].name != "" {
      if IndexOf(items, req.productId).None? && i == |items| {
        assert r[i] == LineOf(req);
      } else {
        assert r[i].productId == items[i].productId && r[i].name == items[i].name;
      }
    }
  }

  /** Setting a quantity or removing a line keeps every line named. */
  lemma UpdateAndRemoveKeepNamed(carts: Carts, userId: string, productId: string, quantity: Option<int>)
    requires AllNamed(carts)
    ensures UpdateItem(carts, userId, productId, quantity).Ok? ==>
      AllNamed(UpdateItem(carts, userId, productId, quantity).value)
    ensures RemoveItem(carts, userId, productId).Ok? ==> AllNamed(RemoveItem(carts, userId, productId).value)
  {
    if UpdateItem(carts, userId, productId, quantity).Ok? {
      var items := carts[userId];
      var r := SetQuantity(items, productId, quantity.value).value;
      forall i | 0 <= i < |r| ensures r[i].productId != "" && r[i].name != "" {
        assert r[i].productId == items[i].productId && r[i].name == items[i].name;
      }
    }
    if RemoveItem(carts, userId, productId).Ok? {
      var items := carts[userId];
      var k := IndexOf(items, productId).value;
      var r := RemoveLine(items, productId).value;
      forall i | 0 <= i < |r| ensures r[i].productId != "" && r[i].name != "" {
        if i < k {
          assert r[i] == items[i];
        } else {
          assert r[i] == items[i + 1];
        }
      }
    }
  }

  /** After a successful add the user's cart holds exactly one line for the
      product, provided it held at most one before. */
  lemma AddItemKeepsUnique(carts: Carts, userId: string, req: AddItemRequest)
    requires AddItem(carts, userId, req).Ok?
    requires userId in carts ==> UniqueProducts(carts[userId])
    ensures UniqueProducts(AddItem(carts, userId, req).value[userId])
    ensures IndexOf(AddItem(carts, userId, req).value[userId], req.productId).Some?
  {
    var items := if userId in carts then carts[userId] else [];
    AddOrMergeKeepsUnique(items, LineOf(req));
    AddOrMergeHasLine(items, LineOf(req));
  }

  /** A cleared cart totals zero, and getting it yields the empty list. */
  lemma ClearThenGet(carts: Carts, userId: string)
    requires ClearCart(carts, userId).Ok?
    ensures GetCart(ClearCart(carts, userId).value, userId).1 == []
    ensures Total(GetCart(ClearCart(carts, userId).value, userId).1) == 0
  {
  }

  /** Getting a cart twice: the second call finds the cart the first stored. */
  lemma GetCartStable(carts: Carts, userId: string)
    ensures GetCart(GetCart(carts, userId).0, userId) == GetCart(carts, userId)
  {
  }

  /** Reading the cart first changes nothing an add then stores: the add starts
      from the lines the read returned, and the empty cart a read may create is
      the one an add would start from anyway. */
  lemma GetThenAdd(carts: Carts, userId: string, req: AddItemRequest)
    ensures AddItem(GetCart(carts, userId).0, userId, req) == AddItem(carts, userId, req)
    ensures AddItem(carts, userId, req).Ok? ==>
      AddItem(carts, userId, req).value[userId] == AddOrMerge(GetCart(carts, userId).1, LineOf(req))
  {
    if userId !in carts && AddRequestValid(req) {
      var line := AddOrMerge([], LineOf(req));
      assert carts[userId := []][userId := line] == carts[userId := line];
    }
  }
}

=== FILE: category_repository.dfy ===
/** The category storage adapter over an in-memory table, with the referential
    integrity guard that refuses to delete a category still used by a product. */
module CategoryRepository {
  import opened Results
  import opened Models
  import Seqs
  import ProductRepository

  const CategoryNotFound: string := "category not found"
  const CategoryInUse: string := "cannot delete category with associated products"
  const DuplicateName: string := "duplicate key value violates unique constraint on name"
  const DuplicateId: string := "duplicate key value violates unique constraint on id"
  const ForeignKeyViolation: string := "insert or update violates foreign key constraint on parent_id"
  const ValueTooLong: string := "value too long for type character varying"

  /** Rows without the soft-delete marker. */
  predicate Visible(c: Category) {
    !c.deleted
  }

  /** Whether a row is the visible row with this identifier. */
  predicate IsLive(c: Category, id: nat) {
    Visible(c) && c.id == id
  }

  function LiveWith(id: nat): Category -> bool {
    c => IsLive(c, id)
  }

  /** The visible category with this identifier, or "category not found" for an
      identifier that is unknown or soft-deleted. */
  function GetByID(t: CategoryTable, id: nat): (r: Result<Category>)
    ensures r.Ok? <==> exists i :: 0 <= i < |t.rows| && IsLive(t.rows[i], id)
    ensures r.Ok? ==> r.value in t.rows && IsLive(r.value, id)
    ensures r.Err? ==> r.error == Error(NotFound, CategoryNotFound)
  {
    match Seqs.FirstIndex(t.rows, LiveWith(id))
    case Some(i) => Ok(t.rows[i])
    case None => Fail(NotFound, CategoryNotFound)
  }

  /** Every category that is not soft-deleted, in table order, each as often
      as the table holds it. */
  function List(t: CategoryTable): (r: seq<Category>)
    ensures forall c :: c in r ==> c in t.rows && Visible(c)
    ensures forall c :: c in t.rows && Visible(c) ==> c in r
    ensures multiset(r) <= multiset(t.rows)
    ensures forall c {:trigger Seqs.Count(r, c)} | c in t.rows :: Seqs.Count(r, c) == if Visible(c) then Seqs.Count(t.rows, c) else 0
  {
    Seqs.Filter(t.rows, Visible)
  }

  /** A visible product that refers to the category. */
  predicate References(p: Product, id: nat) {
    ProductRepository.Visible(p) && p.categoryId == id
  }

  function ReferencesTo(id: nat): Product -> bool {
    p => References(p, id)
  }

  /** The number of visible products in the category. */
  function ReferenceCount(products: ProductTable, id: nat): nat {
    |Seqs.Filter(products.rows, ReferencesTo(id))|
  }

  /** The count is positive exactly when some visible product refers to the
      category. */
  lemma ReferenceCountPositive(products: ProductTable, id: nat)
    ensures ReferenceCount(products, id) > 0
        <==> exists i :: 0 <= i < |products.rows| && References(products.rows[i], id)
  {
    var users := Seqs.Filter(products.rows, ReferencesTo(id));
    if |users| > 0 {
      assert users[0] in products.rows && References(users[0], id);
    }
    if exists i :: 0 <= i < |products.rows| && References(products.rows[i], id) {
      var i :| 0 <= i < |products.rows| && References(products.rows[i], id);
      assert products.rows[i] in users;
    }
  }

  /** Deletion counts the visible products in the category first: any at all and
      the deletion is refused; otherwise the category row is soft-deleted (an
      unknown identifier succeeds and changes nothing). */
  function Delete(t: CategoryTable, products: ProductTable, id: nat): (r: Result<CategoryTable>)
    ensures r.Err? <==> exists i :: 0 <= i < |products.rows| && References(products.rows[i], id)
    ensures r.Err? ==> r.error == Error(Conflict, CategoryInUse)
    ensures r.Ok? ==> |r.value.rows| == |t.rows| && r.value.nextId == t.nextId
    ensures r.Ok? ==> forall i :: 0 <= i < |t.rows| ==>
      (Visible(r.value.rows[i]) <==> Visible(t.rows[i]) && t.rows[i].id != id)
    ensures r.Ok? ==> forall i :: 0 <= i < |t.rows| ==>
      r.value.rows[i].(deleted := false) == t.rows[i].(deleted := false)
  {
    ReferenceCountPositive(products, id);
    if ReferenceCount(products, id) > 0 then
      Fail(Conflict, CategoryInUse)
    else
      var rows := seq(|t.rows|, i requires 0 <= i < |t.rows| =>
        if IsLive(t.rows[i], id) then t.rows[i].(deleted := true) else t.rows[i]);
      Ok(CategoryTable(rows, t.nextId))
  }

  predicate NameTaken(t: CategoryTable, name: string) {
    exists i :: 0 <= i < |t.rows| && t.rows[i].name == name
  }

  /** Some row, soft-deleted or not, holds the primary key. */
  predicate IdTaken(t: CategoryTable, id: nat) {
    exists i :: 0 <= i < |t.rows| && t.rows[i].id == id
  }

  /** The self-referencing foreign key from `parent_id`, checked against the
      rows as they are after the write: no parent, or some row (soft-deleted or
      not, the written row included) carries the parent's identifier. */
  predicate ParentExists(rows: seq<Category>, parent: Option<nat>) {
    parent.None? || exists i :: 0 <= i < |rows| && rows[i].id == parent.value
  }

  /** The identifier an insert uses: the request's own when it is non-zero,
      otherwise the next value of the sequence. */
  function NewId(t: CategoryTable, c: Category): nat {
    if c.id == 0 then t.nextId else c.id
  }

  /** The row an insert stores: the `isActive` column's default replaces a false
      value, and the row is not deleted. */
  function Inserted(c: Category, id: nat): Category {
    c.(id := id, isActive := true, deleted := false)
  }

  /** INSERT. A value wider than its column fails first; then the primary key,
      then the unique index on name, which covers soft-deleted rows too and is
      created after the table; the foreign key to the parent last, at the end
      of the statement. The sequence advances only when the identifier is
      drawn from it. */
  function Create(t: CategoryTable, c: Category): (r: Result<CategoryTable>)
    ensures r.Err? <==> !CategoryFits(c) || NameTaken(t, c.name) || IdTaken(t, NewId(t, c))
                        || !ParentExists(t.rows + [Inserted(c, NewId(t, c))], c.parentId)
    ensures !CategoryFits(c) ==> r == Fail(Storage, ValueTooLong)
    ensures CategoryFits(c) && IdTaken(t, NewId(t, c)) ==> r == Fail(Storage, DuplicateId)
    ensures CategoryFits(c) && !IdTaken(t, NewId(t, c)) && NameTaken(t, c.name) ==> r == Fail(Storage, DuplicateName)
    ensures CategoryFits(c) && !IdTaken(t, NewId(t, c)) && !NameTaken(t, c.name)
            && !ParentExists(t.rows + [Inserted(c, NewId(t, c))], c.parentId)
      ==> r == Fail(Storage, ForeignKeyViolation)
    ensures r.Ok? ==> r.value.rows == t.rows + [Inserted(c, NewId(t, c))]
    ensures r.Ok? ==> r.value.nextId == if c.id == 0 then t.nextId + 1 else t.nextId
  {
    var id := if c.id == 0 then t.nextId else c.id;
    var rows := t.rows + [Inserted(c, id)];
    if !CategoryFits(c) then Fail(Storage, ValueTooLong)
    else if IdTaken(t, id) then Fail(Storage, DuplicateId)
    else if NameTaken(t, c.name) then Fail(Storage, DuplicateName)
    else if !ParentExists(rows, c.parentId) then Fail(Storage, ForeignKeyViolation)
    else Ok(CategoryTable(rows, if c.id == 0 then t.nextId + 1 else t.nextId))
  }

  predicate NameTakenElsewhere(t: CategoryTable, k: nat, name: string) {
    exists i :: 0 <= i < |t.rows| && i != k && t.rows[i].name == name
  }

  predicate HasId(c: Category, id: nat) {
    c.id == id
  }

  function WithId(id: nat): Category -> bool {
    c => HasId(c, id)
  }

  /** The row a save with a non-zero identifier overwrites: the visible row with
      that identifier (the UPDATE), or failing that any row holding it (the
      upsert's conflict on the primary key). */
  function SaveTarget(t: CategoryTable, id: nat): (r: Option<nat>)
    ensures r.Some? ==> r.value < |t.rows| && t.rows[r.value].id == id
    ensures r.None? <==> !IdTaken(t, id)
  {
    match Seqs.FirstIndex(t.rows, LiveWith(id))
    case Some(k) => Some(k)
    case None => Seqs.FirstIndex(t.rows, WithId(id))
  }

  /** The row a save leaves at its target: the UPDATE writes every column as
      given; the upsert stores the row as an insert would. */
  function Saved(t: CategoryTable, k: nat, c: Category): Category
    requires k < |t.rows|
  {
    if Visible(t.rows[k]) then c.(deleted := false) else Inserted(c, c.id)
  }

  /** GORM's `Save`, an upsert, as for products: a zero identifier inserts;
      otherwise the visible row with the identifier is overwritten, or a
      soft-deleted one is overwritten and brought back, or the row is inserted
      under its own identifier. A value wider than its column fails first. A
      save never reports "not found". */
  function Update(t: CategoryTable, c: Category): (r: Result<CategoryTable>)
    ensures c.id == 0 || SaveTarget(t, c.id).None? ==> r == Create(t, c)
    ensures c.id != 0 && SaveTarget(t, c.id).Some? ==>
      (r.Ok? <==> CategoryFits(c) && !NameTakenElsewhere(t, SaveTarget(t, c.id).value, c.name)
                  && ParentExists(t.rows[SaveTarget(t, c.id).value := Saved(t, SaveTarget(t, c.id).value, c)], c.parentId))
    ensures !CategoryFits(c) ==> r == Fail(Storage, ValueTooLong)
    ensures CategoryFits(c) && c.id != 0 && SaveTarget(t, c.id).Some?
            && NameTakenElsewhere(t, SaveTarget(t, c.id).value, c.name)
      ==> r == Fail(Storage, DuplicateName)
    ensures c.id != 0 && SaveTarget(t, c.id).Some? && r.Ok? ==>
      r.value == CategoryTable(t.rows[SaveTarget(t, c.id).value := Saved(t, SaveTarget(t, c.id).value, c)], t.nextId)
    ensures r.Err? ==> r.error in {Error(Storage, ValueTooLong), Error(Storage, DuplicateName),
                                   Error(Storage, DuplicateId), Error(Storage, ForeignKeyViolation)}
  {
    if c.id == 0 then Create(t, c)
    else
      match SaveTarget(t, c.id)
      case None => Create(t, c)
      case Some(k) =>
        var rows := t.rows[k := Saved(t, k, c)];
        if !CategoryFits(c) then Fail(Storage, ValueTooLong)
        else if NameTakenElsewhere(t, k, c.name) then Fail(Storage, DuplicateName)
        else if !ParentExists(rows, c.parentId) then Fail(Storage, ForeignKeyViolation)
        else Ok(CategoryTable(rows, t.nextId))
  }

  // ---------------------------------------------------------------------------
  // Properties

  /** A successful deletion removes exactly that category from the listing. */
  lemma DeleteRemovesExactlyOne(t: CategoryTable, products: ProductTable, id: nat)
    requires Delete(t, products, id).Ok?
    ensures forall c :: c in List(Delete(t, products, id).value) <==> c in List(t) && c.id != id
  {
    var d := Delete(t, products, id).value;
    forall c ensures c in List(d) <==> c in List(t) && c.id != id {
      if c in List(d) {
        var i :| 0 <= i < |d.rows| && d.rows[i] == c;
        assert d.rows[i].(deleted := false) == t.rows[i].(deleted := false);
        assert t.rows[i] == c;
      }
      if c in List(t) && c.id != id {
        var i :| 0 <= i < |t.rows| && t.rows[i] == c;
        assert d.rows[i].(deleted := false) == t.rows[i].(deleted := false);
        assert d.rows[i] == c;
      }
    }
  }

  /** After a successful deletion the category can no longer be looked up. */
  lemma DeleteThenGetFails(t: CategoryTable, products: ProductTable, id: nat)
    requires Delete(t, products, id).Ok?
    ensures GetByID(Delete(t, products, id).value, id) == Err(Error(NotFound, CategoryNotFound))
  {
    var d := Delete(t, products, id).value;
    forall i | 0 <= i < |d.rows| ensures !IsLive(d.rows[i], id) {
      assert d.rows[i].(deleted := false) == t.rows[i].(deleted := false);
    }
  }

  /** Adding a product to a category makes deleting the category fail. */
  lemma ProductInCategoryBlocksDelete(t: CategoryTable, products: ProductTable, p: Product)
    requires ProductRepository.Create(products, t, p).Ok?
    ensures Delete(t, ProductRepository.Create(products, t, p).value, p.categoryId)
         == Err(Error(Conflict, CategoryInUse))
  {
    var ps := ProductRepository.Create(products, t, p).value;
    assert References(ps.rows[|products.rows|], p.categoryId);
  }

  /** Soft-deleting the category's last product unblocks deleting the category. */
  lemma DeletingProductsUnblocks(t: CategoryTable, products: ProductTable, id: nat, productId: nat)
    requires forall i :: 0 <= i < |products.rows| && References(products.rows[i], id)
                         ==> products.rows[i].id == productId
    ensures Delete(t, ProductRepository.Delete(products, productId), id).Ok?
  {
    var ps := ProductRepository.Delete(products, productId);
    forall i | 0 <= i < |ps.rows| ensures !References(ps.rows[i], id) {
      assert ps.rows[i].(deleted := false) == products.rows[i].(deleted := false);
    }
  }

  /** An insertion keeps identifiers and names unique, and the new row can be
      looked up under the identifier it was given. */
  lemma CreatePreservesValid(t: CategoryTable, c: Category)
    requires ValidCategories(t) && Create(t, c).Ok?
    ensures ValidCategories(Create(t, c).value)
    ensures GetByID(Create(t, c).value, NewId(t, c)) == Ok(Inserted(c, NewId(t, c)))
  {
    var n := Create(t, c).value;
    var id := NewId(t, c);
    assert n.rows[|t.rows|] == Inserted(c, id);
    forall i | 0 <= i < |t.rows| ensures !IsLive(n.rows[i], id) {
      assert n.rows[i] == t.rows[i];
    }
  }

  lemma DeletePreservesValid(t: CategoryTable, products: ProductTable, id: nat)
    requires ValidCategories(t) && Delete(t, products, id).Ok?
    ensures ValidCategories(Delete(t, products, id).value)
  {
    var d := Delete(t, products, id).value;
    forall i | 0 <= i < |t.rows| ensures d.rows[i].id == t.rows[i].id && d.rows[i].name == t.rows[i].name {
      assert d.rows[i].(deleted := false) == t.rows[i].(deleted := false);
    }
  }

  /** A save keeps identifiers and names unique. */
  lemma UpdatePreservesValid(t: CategoryTable, c: Category)
    requires ValidCategories(t) && Update(t, c).Ok?
    ensures ValidCategories(Update(t, c).value)
  {
    if c.id == 0 || SaveTarget(t, c.id).None? {
      CreatePreservesValid(t, c);
    } else {
      var k := SaveTarget(t, c.id).value;
      assert !NameTakenElsewhere(t, k, c.name);
    }
  }

  /** After a successful save under a non-zero identifier, looking that
      identifier up returns the saved columns, whether the save updated a
      visible row, brought back a soft-deleted one or inserted a new one. Only
      `isActive` may differ, where the row went through the insert. */
  lemma UpdateThenGet(t: CategoryTable, c: Category)
    requires ValidCategories(t) && c.id != 0 && Update(t, c).Ok?
    ensures GetByID(Update(t, c).value, c.id).Ok?
    ensures GetByID(Update(t, c).value, c.id).value.(isActive := c.isActive) == c.(deleted := false)
  {
    var u := Update(t, c).value;
    UpdatePreservesValid(t, c);
    var k: nat;
    if SaveTarget(t, c.id).None? {
      k := |t.rows|;
      assert u.rows[k] == Inserted(c, c.id);
    } else {
      k := SaveTarget(t, c.id).value;
      assert u.rows[k] == Saved(t, k, c);
    }
    assert IsLive(u.rows[k], c.id);
    var g := Seqs.FirstIndex(u.rows, LiveWith(c.id)).value;
    assert u.rows[g].id == u.rows[k].id;
  }

  /** Every write keeps each stored category within its column widths: a write
      of a wider value fails, and deletion changes no bounded column. */
  lemma WritesKeepRowsFit(t: CategoryTable, c: Category, id: nat, products: ProductTable)
    requires CategoryRowsFit(t)
    ensures Create(t, c).Ok? ==> CategoryRowsFit(Create(t, c).value)
    ensures Update(t, c).Ok? ==> CategoryRowsFit(Update(t, c).value)
    ensures Delete(t, products, id).Ok? ==> CategoryRowsFit(Delete(t, products, id).value)
  {
    if Create(t, c).Ok? {
      var u := Create(t, c).value;
      assert u.rows[|t.rows|] == Inserted(c, NewId(t, c));
    }
    if Update(t, c).Ok? && c.id != 0 && SaveTarget(t, c.id).Some? {
      var k := SaveTarget(t, c.id).value;
      assert Update(t, c).value.rows[k] == Saved(t, k, c);
    }
  }

  /** A category may name itself as its parent: the foreign key is checked
      against the table with the new row in it. */
  lemma SelfParentAccepted(t: CategoryTable, c: Category)
    requires c.id == 0 && c.parentId == Some(t.nextId)
    requires CategoryFits(c) && !NameTaken(t, c.name) && !IdTaken(t, t.nextId)
    ensures Create(t, c).Ok?
  {
    var rows := t.rows + [Inserted(c, t.nextId)];
    assert rows[|t.rows|].id == t.nextId;
  }
}

=== FILE: category_service.dfy ===
/** The category service: a name check in front of the category repository. */
module CategoryService {
  import opened Results
  import opened Models
  import CategoryRepository

  const NameRequired: string := "category name is required"

  function CreateCategory(t: CategoryTable, c: Category): (r: Result<CategoryTable>)
    ensures c.name == "" ==> r == Err(Error(Validation, NameRequired))
    ensures c.name != "" ==> r == CategoryRepository.Create(t, c)
    ensures r.Ok? ==> |r.value.rows| == |t.rows| + 1 && r.value.rows[|t.rows|].name != ""
  {
    if c.name == "" then Fail(Validation, NameRequired)
    else CategoryRepository.Create(t, c)
  }

  function GetCategoryByID(t: CategoryTable, id: nat): (r: Result<Category>)
    ensures r == CategoryRepository.GetByID(t, id)
  {
    CategoryRepository.GetByID(t, id)
  }

  function UpdateCategory(t: CategoryTable, c: Category): (r: Result<CategoryTable>)
    ensures c.name == "" ==> r == Err(Error(Validation, NameRequired))
    ensures c.name != "" ==> r == CategoryRepository.Update(t, c)
  {
    if c.name == "" then Fail(Validation, NameRequired)
    else CategoryRepository.Update(t, c)
  }

  function DeleteCategory(t: CategoryTable, products: ProductTable, id: nat): (r: Result<CategoryTable>)
    ensures r == CategoryRepository.Delete(t, products, id)
  {
    CategoryRepository.Delete(t, products, id)
  }

  function ListCategories(t: CategoryTable): (r: seq<Category>)
    ensures r == CategoryRepository.List(t)
  {
    CategoryRepository.List(t)
  }

  // ---------------------------------------------------------------------------
  // Properties

  /** Every row has a non-empty name: the invariant a table built only through
      the service keeps. */
  predicate AllNamed(t: CategoryTable) {
    forall i :: 0 <= i < |t.rows| ==> t.rows[i].name != ""
  }

  lemma CreateKeepsAllNamed(t: CategoryTable, c: Category)
    requires AllNamed(t) && CreateCategory(t, c).Ok?
    ensures AllNamed(CreateCategory(t, c).value)
  {
    var n := CreateCategory(t, c).value;
    forall i | 0 <= i < |n.rows| ensures n.rows[i].name != "" {
      if i < |t.rows| {
        assert n.rows[i] == t.rows[i];
      }
    }
  }

  lemma UpdateKeepsAllNamed(t: CategoryTable, c: Category)
    requires AllNamed(t) && UpdateCategory(t, c).Ok?
    ensures AllNamed(UpdateCategory(t, c).value)
  {
    var n := UpdateCategory(t, c).value;
    if c.id == 0 || CategoryRepository.SaveTarget(t, c.id).None? {
      CreateKeepsAllNamed(t, c);
    } else {
      var k := CategoryRepository.SaveTarget(t, c.id).value;
      assert n.rows[k].name == c.name;
    }
  }

  lemma DeleteKeepsAllNamed(t: CategoryTable, products: ProductTable, id: nat)
    requires AllNamed(t) && DeleteCategory(t, products, id).Ok?
    ensures AllNamed(DeleteCategory(t, products, id).value)
  {
    var n := DeleteCategory(t, products, id).value;
    forall i | 0 <= i < |n.rows| ensures n.rows[i].name != "" {
      assert n.rows[i].(deleted := false) == t.rows[i].(deleted := false);
    }
  }
}

=== FILE: models.dfy ===
/** The catalogue's records: products, categories, the list filter and the
    paginated response, plus the two tables that hold the records.

    Prices are whole cents. Timestamps and the free-form attribute map carry no
    behaviour in the operations modelled here and are not represented. */
module Models {
  import opened Results

  /** A product row. `deleted` is the soft-delete marker: a deleted row stays in
      its table (and keeps its SKU in the unique index) but no query sees it. */
  datatype Product = Product(
    id: nat,
    name: string,
    description: string,
    price: int,
    sku: string,
    stockLevel: int,
    imageUrl: string,
    categoryId: nat,
    isActive: bool,
    deleted: bool)

  /** A category row; `parentId` names the parent category, if any. */
  datatype Category = Category(
    id: nat,
    name: string,
    description: string,
    parentId: Option<nat>,
    imageUrl: string,
    isActive: bool,
    deleted: bool)

  /** Product columns a listing may be ordered by. */
  datatype SortField = Id | Name | Description | Price | Sku | StockLevel | CategoryId

  /** The `sortBy` parameter: the empty string, or the name of a column. */
  datatype SortBy = Unsorted | Column(field: SortField)

  /** The optional filters, sort and paging of a product listing. */
  datatype ProductFilter = ProductFilter(
    categoryId: Option<nat>,
    minPrice: Option<int>,
    maxPrice: Option<int>,
    searchQuery: string,
    inStock: Option<bool>,
    sortBy: SortBy,
    sortDirection: string,
    page: int,
    pageSize: int)

  /** One page of products plus the totals across all pages. */
  datatype PaginatedResponse = PaginatedResponse(
    items: seq<Product>,
    page: int,
    pageSize: int,
    totalItems: nat,
    totalPages: nat)

  /** The products table: every row ever inserted, and the next value of the
      identifier sequence. */
  datatype ProductTable = ProductTable(rows: seq<Product>, nextId: nat)

  /** The categories table. */
  datatype CategoryTable = CategoryTable(rows: seq<Category>, nextId: nat)

  // ---------------------------------------------------------------------------
  // Column widths: the `varchar(n)` columns the schema declares. The store
  // counts characters and refuses a longer value.

  const ProductNameWidth: nat := 255
  const SkuWidth: nat := 50
  const ImageUrlWidth: nat := 255
  const CategoryNameWidth: nat := 100

  /** Every bounded column of a product holds its value. */
  predicate ProductFits(p: Product) {
    |p.name| <= ProductNameWidth && |p.sku| <= SkuWidth && |p.imageUrl| <= ImageUrlWidth
  }

  /** Every bounded column of a category holds its value. */
  predicate CategoryFits(c: Category) {
    |c.name| <= CategoryNameWidth && |c.imageUrl| <= ImageUrlWidth
  }

  /** Every stored product fits its columns. */
  predicate ProductRowsFit(t: ProductTable) {
    forall i :: 0 <= i < |t.rows| ==> ProductFits(t.rows[i])
  }

  /** Every stored category fits its columns. */
  predicate CategoryRowsFit(t: CategoryTable) {
    forall i :: 0 <= i < |t.rows| ==> CategoryFits(t.rows[i])
  }

  /** The guarantees of the products table's schema: a positive primary key,
      and a unique index on SKU that covers soft-deleted rows too. Identifiers
      are drawn from the sequence, except that an upsert may insert a row under
      an identifier of its own, so a row may hold an identifier the sequence has
      not reached yet. */
  predicate ValidProducts(t: ProductTable) {
    && t.nextId >= 1
    && (forall i :: 0 <= i < |t.rows| ==> 1 <= t.rows[i].id)
    && (forall i, j :: 0 <= i < j < |t.rows| ==> t.rows[i].id != t.rows[j].id)
    && (forall i, j :: 0 <= i < j < |t.rows| ==> t.rows[i].sku != t.rows[j].sku)
  }

  /** The guarantees of the categories table's schema: a positive primary key
      and a unique index on name. The foreign key from `parentId` is checked
      when a row is written, not kept as an invariant. */
  predicate ValidCategories(t: CategoryTable) {
    && t.nextId >= 1
    && (forall i :: 0 <= i < |t.rows| ==> 1 <= t.rows[i].id)
    && (forall i, j :: 0 <= i < j < |t.rows| ==> t.rows[i].id != t.rows[j].id)
    && (forall i, j :: 0 <= i < j < |t.rows| ==> t.rows[i].name != t.rows[j].name)
  }
}

=== FILE: ordering.dfy ===
/** The ORDER BY clause of a product listing: a column and a direction, and a
    sort that realises it.

    SQL leaves the relative order of rows with equal sort keys unspecified, and
    each page of a listing is a query of its own, so the source's order is any
    arrangement sorted by the key (`SortedBy`). The sort here breaks ties by
    ascending identifier (`Before`), the order `ORDER BY column, id` would fix;
    that order is one of the arrangements the source may produce for a single
    query. */
module Ordering {
  import opened Models
  import Text

  /** A column and a direction. */
  datatype SortKey = SortKey(field: SortField, descending: bool)

  /** The default order when no sort column is given. */
  const ById: SortKey := SortKey(Id, false)

  /** Ascending order on one column. */
  predicate FieldLeq(field: SortField, a: Product, b: Product) {
    match field
    case Id => a.id <= b.id
    case Name => Text.LexLeq(a.name, b.name)
    case Description => Text.LexLeq(a.description, b.description)
    case Price => a.price <= b.price
    case Sku => Text.LexLeq(a.sku, b.sku)
    case StockLevel => a.stockLevel <= b.stockLevel
    case CategoryId => a.categoryId <= b.categoryId
  }

  /** `a` may come before `b` under the key. */
  predicate Leq(key: SortKey, a: Product, b: Product) {
    if key.descending then FieldLeq(key.field, b, a) else FieldLeq(key.field, a, b)
  }

  lemma LeqTotal(key: SortKey, a: Product, b: Product)
    ensures Leq(key, a, b) || Leq(key, b, a)
  {
    match key.field
    case Name => Text.LexTotal(a.name, b.name);
    case Description => Text.LexTotal(a.description, b.description);
    case Sku => Text.LexTotal(a.sku, b.sku);
    case _ =>
  }

  lemma LeqTrans(key: SortKey, a: Product, b: Product, c: Product)
    requires Leq(key, a, b) && Leq(key, b, c)
    ensures Leq(key, a, c)
  {
    if key.descending {
      match key.field
      case Name => Text.LexTrans(c.name, b.name, a.name);
      case Description => Text.LexTrans(c.description, b.description, a.description);
      case Sku => Text.LexTrans(c.sku, b.sku, a.sku);
      case _ =>
    } else {
      match key.field
      case Name => Text.LexTrans(a.name, b.name, c.name);
      case Description => Text.LexTrans(a.description, b.description, c.description);
      case Sku => Text.LexTrans(a.sku, b.sku, c.sku);
      case _ =>
    }
  }

  /** Every earlier item may come before every later one. */
  predicate SortedBy(key: SortKey, xs: seq<Product>) {
    forall i, j {:trigger Leq(key, xs[i], xs[j])} :: 0 <= i < j < |xs| ==> Leq(key, xs[i], xs[j])
  }

  /** The key, then the identifier to break ties: `a` comes before `b` under
      `ORDER BY column, id`. */
  predicate Before(key: SortKey, a: Product, b: Product) {
    Leq(key, a, b) && (Leq(key, b, a) ==> a.id <= b.id)
  }

  lemma BeforeTotal(key: SortKey, a: Product, b: Product)
    ensures Before(key, a, b) || Before(key, b, a)
  {
    LeqTotal(key, a, b);
  }

  lemma BeforeTrans(key: SortKey, a: Product, b: Product, c: Product)
    requires Before(key, a, b) && Before(key, b, c)
    ensures Before(key, a, c)
  {
    LeqTrans(key, a, b, c);
    if Leq(key, c, a) {
      LeqTrans(key, c, a, b);
      LeqTrans(key, b, c, a);
    }
  }

  /** Ordered by the key with ties broken by identifier. */
  predicate SortedThenId(key: SortKey, xs: seq<Product>) {
    forall i, j {:trigger Before(key, xs[i], xs[j])} :: 0 <= i < j < |xs| ==> Before(key, xs[i], xs[j])
  }

  /** Breaking ties is a refinement: the result is still ordered by the key. */
  lemma ThenIdIsSorted(key: SortKey, xs: seq<Product>)
    requires SortedThenId(key, xs)
    ensures SortedBy(key, xs)
  {
    forall i, j | 0 <= i < j < |xs| ensures Leq(key, xs[i], xs[j]) {
      assert Before(key, xs[i], xs[j]);
    }
  }

  /** Putting an item that comes before everything in front of an ordered
      sequence keeps it ordered. */
  lemma SortedCons(key: SortKey, x: Product, ys: seq<Product>)
    requires SortedThenId(key, ys)
    requires forall z :: z in ys ==> Before(key, x, z)
    ensures SortedThenId(key, [x] + ys)
  {
    forall i, j | 0 <= i < j < |ys| + 1 ensures Before(key, ([x] + ys)[i], ([x] + ys)[j]) {
      if i == 0 {
        assert ys[j - 1] in ys;
      } else {
        assert ([x] + ys)[i] == ys[i - 1] && ([x] + ys)[j] == ys[j - 1];
      }
    }
  }

  /** The first item of an ordered sequence comes before every item of it. */
  lemma HeadPrecedes(key: SortKey, ys: seq<Product>, z: Product)
    requires SortedThenId(key, ys) && |ys| > 0 && z in ys
    ensures Before(key, ys[0], z)
  {
    var k :| 0 <= k < |ys| && ys[k] == z;
    if k == 0 {
      BeforeTotal(key, z, z);
    }
  }

  /** Places `x` into an ordered sequence. */
  function Insert(key: SortKey, x: Product, ys: seq<Product>): (r: seq<Product>)
    requires SortedThenId(key, ys)
    ensures SortedThenId(key, r)
    ensures multiset(r) == multiset(ys) + multiset{x}
    ensures |r| == |ys| + 1
  {
    if |ys| == 0 then [x]
    else if Before(key, x, ys[0]) then
      assert forall z :: z in ys ==> Before(key, x, z) by {
        forall z | z in ys ensures Before(key, x, z) {
          HeadPrecedes(key, ys, z);
          BeforeTrans(key, x, ys[0], z);
        }
      }
      SortedCons(key, x, ys);
      [x] + ys
    else
      assert ys == [ys[0]] + ys[1..];
      var rest := Insert(key, x, ys[1..]);
      BeforeTotal(key, x, ys[0]);
      assert forall z :: z in rest ==> Before(key, ys[0], z) by {
        forall z | z in rest ensures Before(key, ys[0], z) {
          assert z in multiset(rest);
          if z != x {
            assert z in multiset(ys[1..]);
            HeadPrecedes(key, ys, z);
          }
        }
      }
      SortedCons(key, ys[0], rest);
      [ys[0]] + rest
  }

  /** Orders a sequence by the key and then by identifier, keeping every item
      exactly as often as before. */
  function Sort(key: SortKey, xs: seq<Product>): (r: seq<Product>)
    ensures SortedThenId(key, r)
    ensures SortedBy(key, r)
    ensures multiset(r) == multiset(xs)
    ensures |r| == |xs|
  {
    if |xs| == 0 then []
    else
      assert xs == [xs[0]] + xs[1..];
      var r := Insert(key, xs[0], Sort(key, xs[1..]));
      ThenIdIsSorted(key, r);
      r
  }

  /** A contiguous run of an ordered sequence is ordered. */
  lemma SortedSubrange(key: SortKey, xs: seq<Product>, a: nat, b: nat)
    requires SortedBy(key, xs) && a <= b <= |xs|
    ensures SortedBy(key, xs[a..b])
  {
    forall i, j | 0 <= i < j < b - a ensures Leq(key, xs[a..b][i], xs[a..b][j]) {
      assert xs[a..b][i] == xs[a + i] && xs[a..b][j] == xs[a + j];
    }
  }

  /** Sorting neither adds nor drops an item. */
  lemma SortMembers(key: SortKey, xs: seq<Product>)
    ensures forall p :: p in Sort(key, xs) <==> p in xs
  {
    var r := Sort(key, xs);
    forall p ensures p in r <==> p in xs {
      assert p in r <==> p in multiset(r);
      assert p in xs <==> p in multiset(xs);
    }
  }
}

=== FILE: orders.dfy ===
/** Orders: creation from a user's cart, and status updates.

    The document store's generated values (the order's identifier, and the
    clock and random digits of its order number) are parameters. The
    order schema's own checks, which run when the order is saved, are modelled
    as the storage error the route reports for them. */
module Orders {
  import opened Results
  import Cart

  const MissingFields: string := "Missing required fields"
  const CartEmpty: string := "Cart is empty"
  const CreateFailed: string := "Failed to create order"
  const InvalidStatus: string := "Invalid status"
  const OrderNotFound: string := "Order not found"

  // ---------------------------------------------------------------------------
  // Enumerations and their wire names

  datatype OrderStatus = Pending | Processing | Completed | Cancelled

  function StatusName(s: OrderStatus): string {
    match s
    case Pending => "pending"
    case Processing => "processing"
    case Completed => "completed"
    case Cancelled => "cancelled"
  }

  /** The status a request names, if it names one of the four. */
  function ParseStatus(name: string): (r: Option<OrderStatus>)
    ensures r.Some? ==> StatusName(r.value) == name
    ensures r.None? ==> forall s: OrderStatus :: StatusName(s) != name
  {
    if name == "pending" then Some(Pending)
    else if name == "processing" then Some(Processing)
    else if name == "completed" then Some(Completed)
    else if name == "cancelled" then Some(Cancelled)
    else None
  }

  datatype PaymentMethod = CreditCard | PayPal | BankTransfer

  function MethodName(m: PaymentMethod): string {
    match m
    case CreditCard => "credit_card"
    case PayPal => "paypal"
    case BankTransfer => "bank_transfer"
  }

  /** The payment method a request names, if the schemas accept it. */
  function ParseMethod(name: string): (r: Option<PaymentMethod>)
    ensures r.Some? ==> MethodName(r.value) == name
    ensures r.None? ==> forall m: PaymentMethod :: MethodName(m) != name
  {
    if name == "credit_card" then Some(CreditCard)
    else if name == "paypal" then Some(PayPal)
    else if name == "bank_transfer" then Some(BankTransfer)
    else None
  }

  /** Payment states; an order's payment never becomes `Refunded`, which only
      payment records admit. */
  datatype PaymentStatus = PaymentPending | PaymentCompleted | PaymentFailed | Refunded

  // ---------------------------------------------------------------------------
  // Records

  /** An order line: a cart line without its image. */
  datatype OrderItem = OrderItem(productId: string, name: string, price: int, quantity: int)

  datatype Address = Address(
    fullName: string,
    street: string,
    city: string,
    state: string,
    zipCode: string,
    country: string)

  datatype PaymentInfo = PaymentInfo(
    paymentMethod: PaymentMethod,
    status: PaymentStatus,
    transactionId: Option<string>)

  datatype Order = Order(
    orderNumber: string,
    userId: string,
    items: seq<OrderItem>,
    totalAmount: int,
    status: OrderStatus,
    shippingAddress: Address,
    paymentInfo: PaymentInfo)

  /** Every order, by document identifier. */
  type Orders = map<string, Order>

  /** The body of an order-creation request; an absent address is `None`, and
      an empty string stands for an absent or empty text field. */
  datatype CreateOrderRequest = CreateOrderRequest(
    userId: string,
    shippingAddress: Option<Address>,
    paymentMethod: string)

  // ---------------------------------------------------------------------------
  // Totals and the copy of the cart

  function ItemTotal(item: OrderItem): int {
    item.price * item.quantity
  }

  /** The sum of price times quantity over an order's lines. */
  function ItemsTotal(items: seq<OrderItem>): int {
    if |items| == 0 then 0 else ItemTotal(items[0]) + ItemsTotal(items[1..])
  }

  function ToOrderItem(line: Cart.CartItem): OrderItem {
    OrderItem(line.productId, line.name, line.price, line.quantity)
  }

  /** The cart's lines as order lines, one for one and in order. */
  function ToOrderItems(lines: seq<Cart.CartItem>): (r: seq<OrderItem>)
    ensures |r| == |lines|
    ensures forall i :: 0 <= i < |lines| ==>
      r[i].productId == lines[i].productId && r[i].name == lines[i].name
      && r[i].price == lines[i].price && r[i].quantity == lines[i].quantity
  {
    seq(|lines|, i requires 0 <= i < |lines| => ToOrderItem(lines[i]))
  }

  /** The copy keeps the total. */
  lemma {:induction false} ToOrderItemsTotal(lines: seq<Cart.CartItem>)
    ensures ItemsTotal(ToOrderItems(lines)) == Cart.Total(lines)
  {
    if |lines| > 0 {
      assert ToOrderItems(lines)[1..] == ToOrderItems(lines[1..]);
      ToOrderItemsTotal(lines[1..]);
    }
  }

  // ---------------------------------------------------------------------------
  // Schema checks

  /** The order schema's checks on its lines: the required text fields
      `productId` and `name` are present (the store's required check refuses
      an empty string), and every quantity is at least one. */
  predicate ItemsValid(items: seq<OrderItem>) {
    forall i :: 0 <= i < |items| ==>
      items[i].productId != "" && items[i].name != "" && items[i].quantity >= 1
  }

  /** What every stored order satisfies: its required fields (number, user,
      payment method) are present, and every line has its product, its name and
      a quantity of at least one. */
  predicate ValidOrder(o: Order) {
    o.orderNumber != "" && o.userId != "" && ItemsValid(o.items)
    && o.paymentInfo.status != Refunded
  }

  predicate AllValid(orders: Orders) {
    forall id :: id in orders ==> ValidOrder(orders[id])
  }

  predicate OrderNumberTaken(orders: Orders, orderNumber: string) {
    exists id :: id in orders && orders[id].orderNumber == orderNumber
  }

  // ---------------------------------------------------------------------------
  // Creation

  /** The request's own check: user, address and method must be present. */
  predicate RequestComplete(req: CreateOrderRequest) {
    req.userId != "" && req.shippingAddress.Some? && req.paymentMethod != ""
  }

  /** Whether the user has a cart with at least one line. */
  predicate HasItems(carts: Cart.Carts, userId: string) {
    userId in carts && |carts[userId]| > 0
  }

  /** The order a request makes from a cart. */
  function NewOrder(req: CreateOrderRequest, lines: seq<Cart.CartItem>, pm: PaymentMethod, orderNumber: string): Order
    requires req.shippingAddress.Some?
  {
    Order(orderNumber, req.userId, ToOrderItems(lines), Cart.Total(lines), Pending,
          req.shippingAddress.value, PaymentInfo(pm, PaymentPending, None))
  }

  /** The number the schema's `pre('save')` hook generates: "ORD-" followed by
      the last six digits of the clock and a four-digit random number, which
      together are the parameter `stamp`. */
  function OrderNumber(stamp: string): (r: string)
    ensures r != ""
  {
    "ORD-" + stamp
  }

  /** Creation from the user's cart when the new document holds `orderNumber`
      at the time the schema validates it. The checks run in order: required
      fields, a non-empty cart, then the schema's checks on save (a known
      payment method, every quantity at least one, an order number present and
      not yet used), whose failure leaves both stores as they were. */
  function CreateOrderNumbered(carts: Cart.Carts, orders: Orders, req: CreateOrderRequest,
                               orderId: string, orderNumber: string): (r: Result<(Cart.Carts, Orders)>)
    requires orderId !in orders
    ensures !RequestComplete(req) ==> r == Err(Error(Validation, MissingFields))
    ensures RequestComplete(req) && !HasItems(carts, req.userId) ==> r == Err(Error(Validation, CartEmpty))
    ensures RequestComplete(req) && HasItems(carts, req.userId) && r.Err? ==> r == Err(Error(Storage, CreateFailed))
    ensures r.Ok? <==>
      && RequestComplete(req) && HasItems(carts, req.userId)
      && ParseMethod(req.paymentMethod).Some?
      && ItemsValid(ToOrderItems(carts[req.userId]))
      && orderNumber != ""
      && !OrderNumberTaken(orders, orderNumber)
    ensures r.Ok? ==>
      && r.value.0 == carts[req.userId := []]
      && r.value.1.Keys == orders.Keys + {orderId}
      && (forall id :: id in orders ==> r.value.1[id] == orders[id])
    ensures r.Ok? ==>
      var o := r.value.1[orderId];
      && o.orderNumber == orderNumber
      && o.userId == req.userId
      && o.items == ToOrderItems(carts[req.userId])
      && o.totalAmount == Cart.Total(carts[req.userId])
      && o.status == Pending
      && o.paymentInfo == PaymentInfo(ParseMethod(req.paymentMethod).value, PaymentPending, None)
  {
    if !RequestComplete(req) then Fail(Validation, MissingFields)
    else if !HasItems(carts, req.userId) then Fail(Validation, CartEmpty)
    else
      var lines := carts[req.userId];
      match ParseMethod(req.paymentMethod)
      case None => Fail(Storage, CreateFailed)
      case Some(pm) =>
        var order := NewOrder(req, lines, pm, orderNumber);
        if !ItemsValid(order.items) || orderNumber == "" || OrderNumberTaken(orders, orderNumber) then
          Fail(Storage, CreateFailed)
        else
          Ok((carts[req.userId := []], orders[orderId := order]))
  }

  /** Creation as the route and schema are written: the order number is
      required, but the hook that generates it runs only after validation, so
      the document is validated without one and every request that gets past
      the route's own checks fails with the storage error. */
  function CreateOrderAsWritten(carts: Cart.Carts, orders: Orders, req: CreateOrderRequest,
                                orderId: string): (r: Result<(Cart.Carts, Orders)>)
    requires orderId !in orders
    ensures r.Err?
    ensures !RequestComplete(req) ==> r == Err(Error(Validation, MissingFields))
    ensures RequestComplete(req) && !HasItems(carts, req.userId) ==> r == Err(Error(Validation, CartEmpty))
    ensures RequestComplete(req) && HasItems(carts, req.userId) ==> r == Err(Error(Storage, CreateFailed))
  {
    CreateOrderNumbered(carts, orders, req, orderId, "")
  }

  /** Creation with the order number generated before validation, as the
      schema evidently intends: the order is stored exactly when the route's
      checks and the schema's checks pass and the generated number is unused,
      and the cart is emptied. */
  function CreateOrder(carts: Cart.Carts, orders: Orders, req: CreateOrderRequest,
                       orderId: string, stamp: string): (r: Result<(Cart.Carts, Orders)>)
    requires orderId !in orders
    ensures !RequestComplete(req) ==> r == Err(Error(Validation, MissingFields))
    ensures RequestComplete(req) && !HasItems(carts, req.userId) ==> r == Err(Error(Validation, CartEmpty))
    ensures RequestComplete(req) && HasItems(carts, req.userId) && r.Err? ==> r == Err(Error(Storage, CreateFailed))
    ensures r.Ok? <==>
      && RequestComplete(req) && HasItems(carts, req.userId)
      && ParseMethod(req.paymentMethod).Some?
      && ItemsValid(ToOrderItems(carts[req.userId]))
      && !OrderNumberTaken(orders, OrderNumber(stamp))
    ensures r.Ok? ==>
      && r.value.0 == carts[req.userId := []]
      && r.value.1.Keys == orders.Keys + {orderId}
      && (forall id :: id in orders ==> r.value.1[id] == orders[id])
    ensures r.Ok? ==>
      var o := r.value.1[orderId];
      && o.orderNumber == OrderNumber(stamp)
      && o.userId == req.userId
      && o.items == ToOrderItems(carts[req.userId])
      && o.totalAmount == Cart.Total(carts[req.userId])
      && o.status == Pending
      && o.paymentInfo == PaymentInfo(ParseMethod(req.paymentMethod).value, PaymentPending, None)
  {
    CreateOrderNumbered(carts, orders, req, orderId, OrderNumber(stamp))
  }

  /** Sets an order's status; the status must be one of the four, checked before
      the lookup. */
  function UpdateOrderStatus(orders: Orders, orderId: string, status: string): (r: Result<Orders>)
    ensures ParseStatus(status).None? ==> r == Err(Error(Validation, InvalidStatus))
    ensures ParseStatus(status).Some? && orderId !in orders ==> r == Err(Error(NotFound, OrderNotFound))
    ensures r.Ok? <==> ParseStatus(status).Some? && orderId in orders
    ensures r.Ok? ==> r.value == orders[orderId := orders[orderId].(status := ParseStatus(status).value)]
  {
    match ParseStatus(status)
    case None => Fail(Validation, InvalidStatus)
    case Some(s) =>
      if orderId !in orders then Fail(NotFound, OrderNotFound)
      else Ok(orders[orderId := orders[orderId].(status := s)])
  }

  // ---------------------------------------------------------------------------
  // Properties

  /** The wire names and the enumeration correspond one to one. */
  lemma StatusRoundTrip(s: OrderStatus, name: string)
    ensures ParseStatus(StatusName(s)) == Some(s)
    ensures ParseStatus(name).Some? ==> StatusName(ParseStatus(name).value) == name
  {
  }

  lemma MethodRoundTrip(m: PaymentMethod, name: string)
    ensures ParseMethod(MethodName(m)) == Some(m)
    ensures ParseMethod(name).Some? ==> MethodName(ParseMethod(name).value) == name
  {
  }

  /** Any status may replace any other: there is no transition rule. */
  lemma AnyStatusReachable(orders: Orders, orderId: string, from: OrderStatus, to: OrderStatus)
    requires orderId in orders && orders[orderId].status == from
    ensures UpdateOrderStatus(orders, orderId, StatusName(to)).Ok?
    ensures UpdateOrderStatus(orders, orderId, StatusName(to)).value[orderId].status == to
  {
    StatusRoundTrip(to, StatusName(to));
  }

  /** A created order's total is the sum over its own lines. */
  lemma CreatedOrderTotalMatchesItems(carts: Cart.Carts, orders: Orders, req: CreateOrderRequest,
                                      orderId: string, stamp: string)
    requires orderId !in orders
    requires CreateOrder(carts, orders, req, orderId, stamp).Ok?
    ensures var o := CreateOrder(carts, orders, req, orderId, stamp).value.1[orderId];
      o.totalAmount == ItemsTotal(o.items)
  {
    ToOrderItemsTotal(carts[req.userId]);
  }

  /** Every stored order's total is the sum over its own lines. */
  predicate TotalsConsistent(orders: Orders) {
    forall id :: id in orders ==> orders[id].totalAmount == ItemsTotal(orders[id].items)
  }

  lemma CreateOrderKeepsTotalsConsistent(carts: Cart.Carts, orders: Orders, req: CreateOrderRequest,
                                         orderId: string, stamp: string)
    requires orderId !in orders && TotalsConsistent(orders)
    requires CreateOrder(carts, orders, req, orderId, stamp).Ok?
    ensures TotalsConsistent(CreateOrder(carts, orders, req, orderId, stamp).value.1)
  {
    CreatedOrderTotalMatchesItems(carts, orders, req, orderId, stamp);
  }

  lemma UpdateOrderStatusKeepsTotalsConsistent(orders: Orders, orderId: string, status: string)
    requires TotalsConsistent(orders) && UpdateOrderStatus(orders, orderId, status).Ok?
    ensures TotalsConsistent(UpdateOrderStatus(orders, orderId, status).value)
  {
  }

  /** Creation keeps every stored order valid. */
  lemma CreateOrderKeepsValid(carts: Cart.Carts, orders: Orders, req: CreateOrderRequest,
                              orderId: string, stamp: string)
    requires orderId !in orders && AllValid(orders)
    requires CreateOrder(carts, orders, req, orderId, stamp).Ok?
    ensures AllValid(CreateOrder(carts, orders, req, orderId, stamp).value.1)
  {
  }

  /** Status updates keep every stored order valid. */
  lemma UpdateOrderStatusKeepsValid(orders: Orders, orderId: string, status: string)
    requires AllValid(orders) && UpdateOrderStatus(orders, orderId, status).Ok?
    ensures AllValid(UpdateOrderStatus(orders, orderId, status).value)
  {
  }

  /** A second order from the same cart is refused: the first emptied it. */
  lemma SecondOrderFromSameCartFails(carts: Cart.Carts, orders: Orders, req: CreateOrderRequest,
                                     orderId: string, stamp: string, orderId2: string, stamp2: string)
    requires orderId !in orders
    requires CreateOrder(carts, orders, req, orderId, stamp).Ok?
    requires orderId2 !in CreateOrder(carts, orders, req, orderId, stamp).value.1
    ensures var after := CreateOrder(carts, orders, req, orderId, stamp).value;
      CreateOrder(after.0, after.1, req, orderId2, stamp2) == Err(Error(Validation, CartEmpty))
  {
  }

  /** A cart that a negative-quantity add left with a line below one passes the
      route's own checks but not the order schema's: creation fails with the
      storage error and nothing changes. */
  lemma NonPositiveLineFailsOnSave(carts: Cart.Carts, orders: Orders, req: CreateOrderRequest,
                                   orderId: string, stamp: string, k: nat)
    requires orderId !in orders
    requires RequestComplete(req) && req.userId in carts
    requires k < |carts[req.userId]| && carts[req.userId][k].quantity < 1
    ensures CreateOrder(carts, orders, req, orderId, stamp) == Err(Error(Storage, CreateFailed))
  {
    assert ToOrderItems(carts[req.userId])[k].quantity < 1;
  }

  /** A cart line without a product identifier or a name passes the route's own
      checks but not the order schema's required check: creation fails with
      the storage error and nothing changes. */
  lemma UnnamedLineFailsOnSave(carts: Cart.Carts, orders: Orders, req: CreateOrderRequest,
                               orderId: string, stamp: string, k: nat)
    requires orderId !in orders
    requires RequestComplete(req) && req.userId in carts
    requires k < |carts[req.userId]|
    requires carts[req.userId][k].productId == "" || carts[req.userId][k].name == ""
    ensures CreateOrder(carts, orders, req, orderId, stamp) == Err(Error(Storage, CreateFailed))
  {
    var item := ToOrderItems(carts[req.userId])[k];
    assert item.productId == "" || item.name == "";
  }

  /** For a cart whose lines all name their product, as the cart routes build
      them, the schema's line checks come down to the quantities. */
  lemma NamedCartItemsValid(lines: seq<Cart.CartItem>)
    requires Cart.LinesNamed(lines)
    ensures ItemsValid(ToOrderItems(lines)) <==> forall i :: 0 <= i < |lines| ==> lines[i].quantity >= 1
  {
    var items := ToOrderItems(lines);
    if forall i :: 0 <= i < |lines| ==> lines[i].quantity >= 1 {
      forall i | 0 <= i < |items|
        ensures items[i].productId != "" && items[i].name != "" && items[i].quantity >= 1
      {
        assert lines[i].productId != "" && lines[i].name != "";
      }
    } else {
      var i :| 0 <= i < |lines| && lines[i].quantity < 1;
      assert items[i].quantity < 1;
    }
  }

  /** A request that passes every check: the route as written answers with the
      storage error, while creation with the number generated before
      validation stores the order. */
  lemma AsWrittenFailsWhereIntendedSucceeds(carts: Cart.Carts, orders: Orders, req: CreateOrderRequest,
                                            orderId: string, stamp: string)
    requires orderId !in orders
    requires RequestComplete(req) && HasItems(carts, req.userId)
    requires ParseMethod(req.paymentMethod).Some? && ItemsValid(ToOrderItems(carts[req.userId]))
    requires !OrderNumberTaken(orders, OrderNumber(stamp))
    ensures CreateOrderAsWritten(carts, orders, req, orderId) == Err(Error(Storage, CreateFailed))
    ensures CreateOrder(carts, orders, req, orderId, stamp).Ok?
  {
  }
}

=== FILE: pagination.dfy ===
/** Page arithmetic shared by product listing and search: normalisation of the
    requested page, OFFSET/LIMIT slicing and the page count. */
module Pagination {
  import Seqs

  const DefaultPage: int := 1
  const DefaultPageSize: int := 20

  /** A page number below 1 is replaced by the first page. */
  function NormalizePage(page: int): (r: int)
    ensures r >= 1
    ensures page >= 1 ==> r == page
  {
    if page < 1 then DefaultPage else page
  }

  /** A page size below 1 is replaced by the default size; no upper cap applies. */
  function NormalizePageSize(pageSize: int): (r: int)
    ensures r >= 1
    ensures pageSize >= 1 ==> r == pageSize
  {
    if pageSize < 1 then DefaultPageSize else pageSize
  }

  function Min(a: int, b: int): int {
    if a <= b then a else b
  }

  /** Ceiling of n / d: the fewest pages of `d` items that hold `n` items. */
  function CeilDiv(n: nat, d: int): (r: nat)
    requires d >= 1
    ensures n <= r * d
    ensures r == 0 || (r - 1) * d < n
  {
    var q := (n + d - 1) / d;
    assert q * d + (n + d - 1) % d == n + d - 1;
    q
  }

  /** No items means no pages. */
  lemma CeilDivZero(d: int)
    requires d >= 1
    ensures CeilDiv(0, d) == 0
  {
  }

  /** First position of a page: `(page-1) * pageSize`, as in the OFFSET clause. */
  function Offset(page: int, pageSize: int): (r: nat)
    requires page >= 1 && pageSize >= 1
  {
    (page - 1) * pageSize
  }

  function PageStart(n: nat, page: int, pageSize: int): nat
    requires page >= 1 && pageSize >= 1
  {
    Min(Offset(page, pageSize), n)
  }

  function PageEnd(n: nat, page: int, pageSize: int): nat
    requires page >= 1 && pageSize >= 1
  {
    Min(Offset(page, pageSize) + pageSize, n)
  }

  /** OFFSET (page-1)*pageSize LIMIT pageSize over an ordered result set: the
      positions `[(page-1)*pageSize, page*pageSize)` clipped to its length. */
  function PageSlice<T>(xs: seq<T>, page: int, pageSize: int): (r: seq<T>)
    requires page >= 1 && pageSize >= 1
    ensures |r| <= pageSize
    ensures forall k :: 0 <= k < |r| ==> Offset(page, pageSize) + k < |xs| && r[k] == xs[Offset(page, pageSize) + k]
    ensures |r| == if Offset(page, pageSize) >= |xs| then 0 else Min(pageSize, |xs| - Offset(page, pageSize))
  {
    xs[PageStart(|xs|, page, pageSize)..PageEnd(|xs|, page, pageSize)]
  }

  /** A page holds only items of the whole result set. */
  lemma PageSliceMembers<T>(xs: seq<T>, page: int, pageSize: int)
    requires page >= 1 && pageSize >= 1
    ensures forall x :: x in PageSlice(xs, page, pageSize) ==> x in xs
  {
  }

  /** A page holds items exactly when its number is at most the page count. */
  lemma PageNonEmptyIff<T>(xs: seq<T>, page: int, pageSize: int)
    requires page >= 1 && pageSize >= 1
    ensures |PageSlice(xs, page, pageSize)| > 0 <==> page <= CeilDiv(|xs|, pageSize)
  {
    var c := CeilDiv(|xs|, pageSize);
    if page <= c {
      assert (page - 1) * pageSize <= (c - 1) * pageSize by {
        MulMono(page - 1, c - 1, pageSize);
      }
    } else {
      assert c * pageSize <= (page - 1) * pageSize by {
        MulMono(c, page - 1, pageSize);
      }
    }
  }

  /** Every page before the last one is full. */
  lemma PageFullBeforeLast<T>(xs: seq<T>, page: int, pageSize: int)
    requires page >= 1 && pageSize >= 1
    requires page < CeilDiv(|xs|, pageSize)
    ensures |PageSlice(xs, page, pageSize)| == pageSize
  {
    var c := CeilDiv(|xs|, pageSize);
    assert page * pageSize <= (c - 1) * pageSize by {
      MulMono(page, c - 1, pageSize);
    }
  }

  lemma MulMono(a: int, b: int, d: int)
    requires 0 <= a <= b && d >= 0
    ensures a * d <= b * d
  {
  }

  /** The item at position i of the whole result set appears on page i / pageSize + 1,
      at position i % pageSize. */
  lemma ItemOnItsPage<T>(xs: seq<T>, pageSize: int, i: int)
    requires pageSize >= 1 && 0 <= i < |xs|
    ensures i % pageSize < |PageSlice(xs, i / pageSize + 1, pageSize)|
    ensures PageSlice(xs, i / pageSize + 1, pageSize)[i % pageSize] == xs[i]
  {
    assert Offset(i / pageSize + 1, pageSize) == (i / pageSize) * pageSize;
    assert (i / pageSize) * pageSize + i % pageSize == i;
  }

  /** The concatenation of pages 1..k. */
  function PagesUpTo<T>(xs: seq<T>, pageSize: int, k: nat): seq<T>
    requires pageSize >= 1
  {
    if k == 0 then [] else PagesUpTo(xs, pageSize, k - 1) + PageSlice(xs, k, pageSize)
  }

  /** The pages 1..k of some paged reader laid end to end. */
  function Joined<T>(page: nat -> seq<T>, k: nat): seq<T> {
    if k == 0 then [] else Joined(page, k - 1) + page(k)
  }

  /** A reader whose page j is the j-th slice of `xs`, read page by page, yields
      the same items as the slices themselves. */
  lemma {:induction false} JoinedPages<T>(xs: seq<T>, pageSize: int, page: nat -> seq<T>, k: nat)
    requires pageSize >= 1
    requires forall j: nat :: 1 <= j <= k ==> page(j) == PageSlice(xs, j, pageSize)
    ensures Joined(page, k) == PagesUpTo(xs, pageSize, k)
  {
    if k > 0 {
      JoinedPages(xs, pageSize, page, k - 1);
    }
  }

  /** Pages 1..k laid end to end are exactly the first k*pageSize items. */
  lemma {:induction false} PagesUpToIsPrefix<T>(xs: seq<T>, pageSize: int, k: nat)
    requires pageSize >= 1
    ensures PagesUpTo(xs, pageSize, k) == xs[..Min(k * pageSize, |xs|)]
  {
    if k > 0 {
      PagesUpToIsPrefix(xs, pageSize, k - 1);
      var a := Min((k - 1) * pageSize, |xs|);
      var b := Min(k * pageSize, |xs|);
      PageSliceBetween(xs, k, pageSize);
      assert xs[..a] + xs[a..b] == xs[..b];
    }
  }

  /** Page k runs from item (k-1)*pageSize up to item k*pageSize, both clipped
      to the length of the result set. */
  lemma PageSliceBetween<T>(xs: seq<T>, k: nat, pageSize: int)
    requires k >= 1 && pageSize >= 1
    ensures PageSlice(xs, k, pageSize) == xs[Min((k - 1) * pageSize, |xs|)..Min(k * pageSize, |xs|)]
  {
    assert (k - 1) * pageSize + pageSize == k * pageSize;
  }

  /** Pages 1..totalPages, in order, reassemble the whole result set: nothing is lost
      and nothing is repeated. */
  lemma PagesCoverAll<T>(xs: seq<T>, pageSize: int)
    requires pageSize >= 1
    ensures PagesUpTo(xs, pageSize, CeilDiv(|xs|, pageSize)) == xs
  {
    PagesUpToIsPrefix(xs, pageSize, CeilDiv(|xs|, pageSize));
    assert xs[..|xs|] == xs;
  }

  /** Page p followed by page p+1 is one contiguous run of the result set. */
  lemma ConsecutivePagesContiguous<T>(xs: seq<T>, page: int, pageSize: int)
    requires page >= 1 && pageSize >= 1
    ensures PageSlice(xs, page, pageSize) + PageSlice(xs, page + 1, pageSize)
         == xs[PageStart(|xs|, page, pageSize)..PageEnd(|xs|, page + 1, pageSize)]
  {
    assert Offset(page + 1, pageSize) == Offset(page, pageSize) + pageSize;
    var a := PageStart(|xs|, page, pageSize);
    var b := PageEnd(|xs|, page, pageSize);
    var c := PageEnd(|xs|, page + 1, pageSize);
    assert xs[a..b] + xs[b..c] == xs[a..c];
  }

  /** A page of a duplicate-free sequence is duplicate-free. */
  lemma PageSliceNoDup<T>(xs: seq<T>, page: int, pageSize: int)
    requires page >= 1 && pageSize >= 1 && Seqs.NoDup(xs)
    ensures Seqs.NoDup(PageSlice(xs, page, pageSize))
  {
    var r := PageSlice(xs, page, pageSize);
    var off := Offset(page, pageSize);
    forall i, j | 0 <= i < j < |r| ensures r[i] != r[j] {
      assert r[i] == xs[off + i] && r[j] == xs[off + j];
    }
  }

  /** Over a duplicate-free result set, two different pages share no item. */
  lemma PagesDisjoint<T>(xs: seq<T>, p: int, q: int, pageSize: int)
    requires p >= 1 && q >= 1 && pageSize >= 1 && p != q
    requires Seqs.NoDup(xs)
    ensures forall x :: x in PageSlice(xs, p, pageSize) ==> x !in PageSlice(xs, q, pageSize)
  {
    var P := PageSlice(xs, p, pageSize);
    var Q := PageSlice(xs, q, pageSize);
    if p < q {
      assert p * pageSize <= (q - 1) * pageSize by { MulMono(p, q - 1, pageSize); }
    } else {
      assert q * pageSize <= (p - 1) * pageSize by { MulMono(q, p - 1, pageSize); }
    }
    forall k, m | 0 <= k < |P| && 0 <= m < |Q| ensures P[k] != Q[m] {
      var i := Offset(p, pageSize) + k;
      var j := Offset(q, pageSize) + m;
      assert P[k] == xs[i] && Q[m] == xs[j] && i != j;
    }
  }
}

=== FILE: payments.dfy ===
/** Payment processing: a payment record for an order, and the order's payment
    outcome.

    Whether the simulated charge succeeds is a parameter, as are the payment
    record's identifier and the clock and random digits of the transaction
    identifier the store generates. */
module Payments {
  import opened Results
  import Orders

  const MissingFields: string := "Missing required fields"
  const OrderNotFound: string := "Order not found"
  const ProcessFailed: string := "Failed to process payment"
  const DefaultCurrency: string := "USD"

  datatype CardDetails = CardDetails(cardLast4: Option<string>, cardBrand: Option<string>)

  /** The details recorded when the request gives none. */
  const NoDetails: CardDetails := CardDetails(None, None)

  datatype Payment = Payment(
    orderId: string,
    amount: int,
    currency: string,
    paymentMethod: Orders.PaymentMethod,
    status: Orders.PaymentStatus,
    transactionId: string,
    paymentDetails: CardDetails)

  /** Every payment record, by document identifier. */
  type Payments = map<string, Payment>

  /** The body of a payment request; an empty string stands for an absent or
      empty text field. */
  datatype ProcessRequest = ProcessRequest(
    orderId: string,
    paymentMethod: string,
    paymentDetails: Option<CardDetails>)

  /** The payment state a charge leaves: completed or failed. */
  function Outcome(success: bool): (r: Orders.PaymentStatus)
    ensures r == Orders.PaymentCompleted <==> success
    ensures r == Orders.PaymentFailed <==> !success
  {
    if success then Orders.PaymentCompleted else Orders.PaymentFailed
  }

  /** The identifier the payment schema's `pre('save')` hook generates: "TXN-"
      followed by the clock and random digits given as `stamp`. The field is
      not required, so the hook running after validation does no harm. */
  function TransactionId(stamp: string): (r: string)
    ensures r != ""
  {
    "TXN-" + stamp
  }

  predicate TransactionIdTaken(payments: Payments, transactionId: string) {
    exists id :: id in payments && payments[id].transactionId == transactionId
  }

  /** The order after the charge: payment outcome and transaction recorded, and
      the status moved to processing on success only. */
  function Settle(o: Orders.Order, success: bool, transactionId: string): Orders.Order {
    var info := o.paymentInfo.(status := Outcome(success), transactionId := Some(transactionId));
    if success then o.(paymentInfo := info, status := Orders.Processing) else o.(paymentInfo := info)
  }

  /** Charges an order. The checks run in order: required fields, the order's
      existence, then the payment schema's checks on save (a known method, a
      fresh transaction identifier), whose failure changes nothing. */
  function ProcessPayment(orders: Orders.Orders, payments: Payments, req: ProcessRequest,
                          success: bool, paymentId: string, stamp: string)
    : (r: Result<(Orders.Orders, Payments)>)
    requires paymentId !in payments
    ensures req.orderId == "" || req.paymentMethod == "" ==> r == Err(Error(Validation, MissingFields))
    ensures req.orderId != "" && req.paymentMethod != "" && req.orderId !in orders
      ==> r == Err(Error(NotFound, OrderNotFound))
    ensures req.orderId != "" && req.paymentMethod != "" && req.orderId in orders && r.Err?
      ==> r == Err(Error(Storage, ProcessFailed))
    ensures r.Ok? <==>
      && req.orderId != "" && req.paymentMethod != "" && req.orderId in orders
      && Orders.ParseMethod(req.paymentMethod).Some?
      && !TransactionIdTaken(payments, TransactionId(stamp))
    ensures r.Ok? ==>
      && r.value.0.Keys == orders.Keys
      && (forall id :: id in orders && id != req.orderId ==> r.value.0[id] == orders[id])
      && r.value.1.Keys == payments.Keys + {paymentId}
      && (forall id :: id in payments ==> r.value.1[id] == payments[id])
    ensures r.Ok? ==>
      var p := r.value.1[paymentId];
      && p.orderId == req.orderId
      && p.amount == orders[req.orderId].totalAmount
      && p.currency == DefaultCurrency
      && p.paymentMethod == Orders.ParseMethod(req.paymentMethod).value
      && p.status == Outcome(success)
      && p.transactionId == TransactionId(stamp)
      && p.paymentDetails == (if req.paymentDetails.Some? then req.paymentDetails.value else NoDetails)
    ensures r.Ok? ==>
      var before := orders[req.orderId];
      var after := r.value.0[req.orderId];
      && after.paymentInfo.status == Outcome(success)
      && after.paymentInfo.transactionId == Some(TransactionId(stamp))
      && after.paymentInfo.paymentMethod == before.paymentInfo.paymentMethod
      && after.status == (if success then Orders.Processing else before.status)
      && after.(status := before.status, paymentInfo := before.paymentInfo) == before
  {
    if req.orderId == "" || req.paymentMethod == "" then Fail(Validation, MissingFields)
    else if req.orderId !in orders then Fail(NotFound, OrderNotFound)
    else
      var order := orders[req.orderId];
      var transactionId := TransactionId(stamp);
      match Orders.ParseMethod(req.paymentMethod)
      case None => Fail(Storage, ProcessFailed)
      case Some(pm) =>
        if TransactionIdTaken(payments, transactionId) then Fail(Storage, ProcessFailed)
        else
          var details := if req.paymentDetails.Some? then req.paymentDetails.value else NoDetails;
          var payment := Payment(req.orderId, order.totalAmount, DefaultCurrency, pm,
                                 Outcome(success), transactionId, details);
          Ok((orders[req.orderId := Settle(order, success, transactionId)], payments[paymentId := payment]))
  }

  // ---------------------------------------------------------------------------
  // Properties

  /** The payment record and the order agree on the outcome. */
  lemma RecordAndOrderAgree(orders: Orders.Orders, payments: Payments, req: ProcessRequest,
                            success: bool, paymentId: string, stamp: string)
    requires paymentId !in payments
    requires ProcessPayment(orders, payments, req, success, paymentId, stamp).Ok?
    ensures var r := ProcessPayment(orders, payments, req, success, paymentId, stamp).value;
      && r.1[paymentId].status == r.0[req.orderId].paymentInfo.status
      && Some(r.1[paymentId].transactionId) == r.0[req.orderId].paymentInfo.transactionId
  {
  }

  /** With consistent totals, the amount charged is the sum over the order's
      lines. */
  lemma AmountIsItemsTotal(orders: Orders.Orders, payments: Payments, req: ProcessRequest,
                           success: bool, paymentId: string, stamp: string)
    requires paymentId !in payments && Orders.TotalsConsistent(orders)
    requires ProcessPayment(orders, payments, req, success, paymentId, stamp).Ok?
    ensures ProcessPayment(orders, payments, req, success, paymentId, stamp).value.1[paymentId].amount
         == Orders.ItemsTotal(orders[req.orderId].items)
  {
  }

  /** The order's status is not a precondition: a successful charge moves even a
      cancelled or completed order to processing. */
  lemma SuccessOverridesAnyStatus(orders: Orders.Orders, payments: Payments, req: ProcessRequest,
                                  paymentId: string, stamp: string)
    requires paymentId !in payments
    requires req.orderId in orders && orders[req.orderId].status == Orders.Cancelled
    requires ProcessPayment(orders, payments, req, true, paymentId, stamp).Ok?
    ensures ProcessPayment(orders, payments, req, true, paymentId, stamp).value.0[req.orderId].status
         == Orders.Processing
  {
  }

  /** Nor is the order's payment state: an order already paid can be charged
      again, which records a second completed payment. */
  lemma PaidOrderChargedAgain(orders: Orders.Orders, payments: Payments, req: ProcessRequest,
                              paymentId: string, stamp: string,
                              paymentId2: string, stamp2: string)
    requires paymentId !in payments && req.orderId != ""
    requires req.orderId in orders && Orders.ParseMethod(req.paymentMethod).Some?
    requires !TransactionIdTaken(payments, TransactionId(stamp))
    requires paymentId2 != paymentId && paymentId2 !in payments
    requires stamp2 != stamp && !TransactionIdTaken(payments, TransactionId(stamp2))
    ensures var once := ProcessPayment(orders, payments, req, true, paymentId, stamp);
      && once.Ok?
      && var twice := ProcessPayment(once.value.0, once.value.1, req, true, paymentId2, stamp2);
      && twice.Ok?
      && twice.value.1[paymentId].status == Orders.PaymentCompleted
      && twice.value.1[paymentId2].status == Orders.PaymentCompleted
  {
    var once := ProcessPayment(orders, payments, req, true, paymentId, stamp).value;
    assert TransactionId(stamp)[4..] == stamp && TransactionId(stamp2)[4..] == stamp2;
    assert !TransactionIdTaken(once.1, TransactionId(stamp2));
  }

  /** Processing keeps every stored order valid and its total consistent. */
  lemma ProcessPaymentKeepsInvariants(orders: Orders.Orders, payments: Payments, req: ProcessRequest,
                                      success: bool, paymentId: string, stamp: string)
    requires paymentId !in payments
    requires Orders.AllValid(orders) && Orders.TotalsConsistent(orders)
    requires ProcessPayment(orders, payments, req, success, paymentId, stamp).Ok?
    ensures Orders.AllValid(ProcessPayment(orders, payments, req, success, paymentId, stamp).value.0)
    ensures Orders.TotalsConsistent(ProcessPayment(orders, payments, req, success, paymentId, stamp).value.0)
  {
  }
}

=== FILE: product_repository.dfy ===
/** The product storage adapter over an in-memory table: filtered, sorted and
    paginated listing, free-text search, stock adjustment, soft delete, lookup,
    insertion and the save (upsert). Writes check the unique indexes and the
    foreign key into the categories table. */
module ProductRepository {
  import opened Results
  import opened Models
  import Seqs
  import Text
  import Pagination
  import Ordering

  const ProductNotFound: string := "product not found"
  const DuplicateSku: string := "duplicate key value violates unique constraint on sku"
  const DuplicateId: string := "duplicate key value violates unique constraint on id"
  const ForeignKeyViolation: string := "insert or update violates foreign key constraint on category_id"
  const ValueTooLong: string := "value too long for type character varying"

  /** Rows without the soft-delete marker: the only rows any query sees. */
  predicate Visible(p: Product) {
    !p.deleted
  }

  function VisibleRows(t: ProductTable): seq<Product> {
    Seqs.Filter(t.rows, Visible)
  }

  // ---------------------------------------------------------------------------
  // The WHERE clause of a listing: one predicate per optional filter, each of
  // which holds of every product when its filter is absent.

  predicate CategoryMatches(f: ProductFilter, p: Product) {
    f.categoryId.None? || p.categoryId == f.categoryId.value
  }

  predicate MinPriceMatches(f: ProductFilter, p: Product) {
    f.minPrice.None? || p.price >= f.minPrice.value
  }

  predicate MaxPriceMatches(f: ProductFilter, p: Product) {
    f.maxPrice.None? || p.price <= f.maxPrice.value
  }

  /** In stock: a strictly positive stock level. */
  predicate HasStock(p: Product) {
    p.stockLevel > 0
  }

  /** Only an explicit `inStock = true` restricts to products in stock. */
  predicate InStockMatches(f: ProductFilter, p: Product) {
    f.inStock != Some(true) || HasStock(p)
  }

  /** The listing's text filter looks at name and description, never at the SKU. */
  predicate TextMatches(f: ProductFilter, p: Product) {
    f.searchQuery == ""
    || Text.ContainsFold(p.name, f.searchQuery)
    || Text.ContainsFold(p.description, f.searchQuery)
  }

  /** The conjunction of the filters that are present, over visible rows. */
  predicate Selects(f: ProductFilter, p: Product) {
    && Visible(p)
    && CategoryMatches(f, p)
    && MinPriceMatches(f, p)
    && MaxPriceMatches(f, p)
    && InStockMatches(f, p)
    && TextMatches(f, p)
  }

  /** The listing's WHERE clause as a function value. */
  function Selector(f: ProductFilter): Product -> bool {
    p => Selects(f, p)
  }

  /** The filtered set, before ordering and paging. */
  function Matching(t: ProductTable, f: ProductFilter): seq<Product> {
    Seqs.Filter(t.rows, Selector(f))
  }

  /** The ORDER BY of a listing: the given column, descending exactly when the
      direction upper-cases to "DESC"; with no column, ascending identifier. */
  function KeyOf(f: ProductFilter): Ordering.SortKey {
    match f.sortBy
    case Unsorted => Ordering.ById
    case Column(c) => Ordering.SortKey(c, Text.Upper(f.sortDirection) == "DESC")
  }

  /** An arrangement the store may return for one listing query: the filtered
      set ordered by the requested column, rows with equal keys in any order. */
  predicate Admissible(t: ProductTable, f: ProductFilter, o: seq<Product>) {
    Ordering.SortedBy(KeyOf(f), o) && multiset(o) == multiset(Matching(t, f))
  }

  /** An admissible arrangement holds only rows the filter selects. */
  lemma AdmissibleMembers(t: ProductTable, f: ProductFilter, o: seq<Product>)
    requires multiset(o) == multiset(Matching(t, f))
    ensures forall p :: p in o ==> p in t.rows && Selects(f, p)
  {
    forall p | p in o ensures p in t.rows && Selects(f, p) {
      assert p in multiset(o);
      assert p in Matching(t, f);
    }
  }

  /** Normalise the paging parameters and cut the page out of the result set
      `o`, reporting `total` rows in all. */
  function PageOf(o: seq<Product>, total: nat, page: int, pageSize: int): (r: PaginatedResponse)
    ensures r.page >= 1 && r.pageSize >= 1
    ensures r.page == Pagination.NormalizePage(page)
    ensures r.pageSize == Pagination.NormalizePageSize(pageSize)
    ensures r.totalItems == total
    ensures r.totalPages == Pagination.CeilDiv(r.totalItems, r.pageSize)
    ensures |r.items| <= r.pageSize
    ensures r.items == Pagination.PageSlice(o, r.page, r.pageSize)
  {
    var page := Pagination.NormalizePage(page);
    var pageSize := Pagination.NormalizePageSize(pageSize);
    PaginatedResponse(Pagination.PageSlice(o, page, pageSize), page, pageSize, total,
      Pagination.CeilDiv(total, pageSize))
  }

  /** A listing whose query returned the filtered set in the arrangement `o`:
      count the filtered set, normalise the paging parameters, and cut out the
      requested page. Each call is a query of its own and may see a different
      admissible arrangement. */
  function ListWith(t: ProductTable, f: ProductFilter, o: seq<Product>): (r: PaginatedResponse)
    requires Admissible(t, f, o)
    ensures r.page >= 1 && r.pageSize >= 1
    ensures f.page < 1 ==> r.page == 1
    ensures f.page >= 1 ==> r.page == f.page
    ensures f.pageSize < 1 ==> r.pageSize == 20
    ensures f.pageSize >= 1 ==> r.pageSize == f.pageSize
    ensures r.totalItems == |Matching(t, f)|
    ensures r.totalPages == Pagination.CeilDiv(r.totalItems, r.pageSize)
    ensures |r.items| <= r.pageSize
    ensures forall p :: p in r.items ==> p in t.rows && Selects(f, p)
    ensures Ordering.SortedBy(KeyOf(f), r.items)
    ensures r.items == Pagination.PageSlice(o, r.page, r.pageSize)
  {
    var r := PageOf(o, |Matching(t, f)|, f.page, f.pageSize);
    Pagination.PageSliceMembers(o, r.page, r.pageSize);
    AdmissibleMembers(t, f, o);
    Ordering.SortedSubrange(KeyOf(f), o,
      Pagination.PageStart(|o|, r.page, r.pageSize), Pagination.PageEnd(|o|, r.page, r.pageSize));
    r
  }

  /** The filtered set ordered by the requested column, ties broken by
      ascending identifier. */
  function Ordered(t: ProductTable, f: ProductFilter): (r: seq<Product>)
    ensures Admissible(t, f, r)
    ensures Ordering.SortedThenId(KeyOf(f), r)
  {
    Ordering.Sort(KeyOf(f), Matching(t, f))
  }

  /** The listing under the identifier tie-break: one of the arrangements the
      store may return, and the one every call returns once ties are broken. */
  function List(t: ProductTable, f: ProductFilter): (r: PaginatedResponse)
    ensures r.page >= 1 && r.pageSize >= 1
    ensures f.page < 1 ==> r.page == 1
    ensures f.page >= 1 ==> r.page == f.page
    ensures f.pageSize < 1 ==> r.pageSize == 20
    ensures f.pageSize >= 1 ==> r.pageSize == f.pageSize
    ensures r.totalItems == |Matching(t, f)|
    ensures r.totalPages == Pagination.CeilDiv(r.totalItems, r.pageSize)
    ensures |r.items| <= r.pageSize
    ensures forall p :: p in r.items ==> p in t.rows && Selects(f, p)
    ensures Ordering.SortedBy(KeyOf(f), r.items)
    ensures r.items == Pagination.PageSlice(Ordered(t, f), r.page, r.pageSize)
  {
    ListWith(t, f, Ordered(t, f))
  }

  /** The fixed predicate of a search: name, description or SKU. */
  predicate SearchSelects(query: string, p: Product) {
    && Visible(p)
    && (Text.ContainsFold(p.name, query)
        || Text.ContainsFold(p.description, query)
        || Text.ContainsFold(p.sku, query))
  }

  /** The search's WHERE clause as a function value. */
  function SearchSelector(query: string): Product -> bool {
    p => SearchSelects(query, p)
  }

  function SearchMatching(t: ProductTable, query: string): seq<Product> {
    Seqs.Filter(t.rows, SearchSelector(query))
  }

  /** A free-text search with the same paging contract as a listing. The query
      sets no ORDER BY, so the rows come in table order, which stands for the
      store's unspecified order. */
  function Search(t: ProductTable, query: string, page: int, pageSize: int): (r: PaginatedResponse)
    ensures r.page >= 1 && r.pageSize >= 1
    ensures page >= 1 ==> r.page == page
    ensures page < 1 ==> r.page == 1
    ensures pageSize >= 1 ==> r.pageSize == pageSize
    ensures pageSize < 1 ==> r.pageSize == 20
    ensures r.totalItems == |SearchMatching(t, query)|
    ensures r.totalPages == Pagination.CeilDiv(r.totalItems, r.pageSize)
    ensures |r.items| <= r.pageSize
    ensures forall p :: p in r.items ==> p in t.rows && SearchSelects(query, p)
    ensures r.items == Pagination.PageSlice(SearchMatching(t, query), r.page, r.pageSize)
  {
    var matching := SearchMatching(t, query);
    var r := PageOf(matching, |matching|, page, pageSize);
    Pagination.PageSliceMembers(matching, r.page, r.pageSize);
    r
  }

  /** Whether a row is the visible row with this identifier. */
  predicate IsLive(p: Product, id: nat) {
    Visible(p) && p.id == id
  }

  /** `IsLive` for one identifier, as a function value. */
  function LiveWith(id: nat): Product -> bool {
    p => IsLive(p, id)
  }

  /** `UPDATE products SET stock_level = stock_level + delta WHERE id = ?`: the
      visible row with that identifier gains `delta` (which may be negative; no
      floor applies), every other row and column is untouched, and an unknown
      identifier changes nothing and is not an error. */
  function UpdateStock(t: ProductTable, id: nat, delta: int): (r: ProductTable)
    ensures |r.rows| == |t.rows| && r.nextId == t.nextId
    ensures forall i :: 0 <= i < |t.rows| ==>
      r.rows[i].stockLevel == t.rows[i].stockLevel + (if IsLive(t.rows[i], id) then delta else 0)
    ensures forall i :: 0 <= i < |t.rows| ==>
      r.rows[i].(stockLevel := 0) == t.rows[i].(stockLevel := 0)
  {
    var rows := seq(|t.rows|, i requires 0 <= i < |t.rows| =>
      if IsLive(t.rows[i], id) then t.rows[i].(stockLevel := t.rows[i].stockLevel + delta) else t.rows[i]);
    ProductTable(rows, t.nextId)
  }

  /** Soft delete: the visible row with that identifier gains the deletion marker;
      deleting an unknown identifier succeeds and changes nothing. */
  function Delete(t: ProductTable, id: nat): (r: ProductTable)
    ensures |r.rows| == |t.rows| && r.nextId == t.nextId
    ensures forall i :: 0 <= i < |t.rows| ==>
      (Visible(r.rows[i]) <==> Visible(t.rows[i]) && t.rows[i].id != id)
    ensures forall i :: 0 <= i < |t.rows| ==>
      r.rows[i].(deleted := false) == t.rows[i].(deleted := false)
  {
    var rows := seq(|t.rows|, i requires 0 <= i < |t.rows| =>
      if IsLive(t.rows[i], id) then t.rows[i].(deleted := true) else t.rows[i]);
    ProductTable(rows, t.nextId)
  }

  /** The visible product with this identifier, or "product not found". */
  function GetByID(t: ProductTable, id: nat): (r: Result<Product>)
    ensures r.Ok? <==> exists i :: 0 <= i < |t.rows| && IsLive(t.rows[i], id)
    ensures r.Ok? ==> r.value in t.rows && IsLive(r.value, id)
    ensures r.Err? ==> r.error == Error(NotFound, ProductNotFound)
  {
    match Seqs.FirstIndex(t.rows, LiveWith(id))
    case Some(i) => Ok(t.rows[i])
    case None => Fail(NotFound, ProductNotFound)
  }

  predicate SkuTaken(t: ProductTable, sku: string) {
    exists i :: 0 <= i < |t.rows| && t.rows[i].sku == sku
  }

  /** Some row, soft-deleted or not, holds the primary key. */
  predicate IdTaken(t: ProductTable, id: nat) {
    exists i :: 0 <= i < |t.rows| && t.rows[i].id == id
  }

  /** The foreign key from `category_id`: some category row, soft-deleted or
      not, carries the identifier. */
  predicate CategoryExists(cats: CategoryTable, id: nat) {
    exists i :: 0 <= i < |cats.rows| && cats.rows[i].id == id
  }

  /** The identifier an insert uses: the request's own when it is non-zero,
      otherwise the next value of the sequence. */
  function NewId(t: ProductTable, p: Product): nat {
    if p.id == 0 then t.nextId else p.id
  }

  /** The row an insert stores: the `isActive` column's default replaces a false
      value, and the row is not deleted. */
  function Inserted(p: Product, id: nat): Product {
    p.(id := id, isActive := true, deleted := false)
  }

  /** INSERT. The values are converted to the column types first, so a value
      wider than its column fails before any key is looked at. Then the primary
      key, then the unique index on SKU, which covers soft-deleted rows too: the
      store checks a row's indexes in the order they were created, and the SKU
      index is created after the table. The foreign key to the categories table
      is checked last, at the end of the statement. The sequence advances only
      when the identifier is drawn from it. */
  function Create(t: ProductTable, cats: CategoryTable, p: Product): (r: Result<ProductTable>)
    ensures r.Err? <==> !ProductFits(p) || SkuTaken(t, p.sku) || IdTaken(t, NewId(t, p))
                        || !CategoryExists(cats, p.categoryId)
    ensures !ProductFits(p) ==> r == Fail(Storage, ValueTooLong)
    ensures ProductFits(p) && IdTaken(t, NewId(t, p)) ==> r == Fail(Storage, DuplicateId)
    ensures ProductFits(p) && !IdTaken(t, NewId(t, p)) && SkuTaken(t, p.sku) ==> r == Fail(Storage, DuplicateSku)
    ensures ProductFits(p) && !IdTaken(t, NewId(t, p)) && !SkuTaken(t, p.sku) && !CategoryExists(cats, p.categoryId)
      ==> r == Fail(Storage, ForeignKeyViolation)
    ensures r.Ok? ==> r.value.rows == t.rows + [Inserted(p, NewId(t, p))]
    ensures r.Ok? ==> r.value.nextId == if p.id == 0 then t.nextId + 1 else t.nextId
  {
    var id := if p.id == 0 then t.nextId else p.id;
    if !ProductFits(p) then Fail(Storage, ValueTooLong)
    else if IdTaken(t, id) then Fail(Storage, DuplicateId)
    else if SkuTaken(t, p.sku) then Fail(Storage, DuplicateSku)
    else if !CategoryExists(cats, p.categoryId) then Fail(Storage, ForeignKeyViolation)
    else Ok(ProductTable(t.rows + [Inserted(p, id)], if p.id == 0 then t.nextId + 1 else t.nextId))
  }

  /** A SKU held by some row other than the one at `k`. */
  predicate SkuTakenElsewhere(t: ProductTable, k: nat, sku: string) {
    exists i :: 0 <= i < |t.rows| && i != k && t.rows[i].sku == sku
  }

  /** A row, deleted or not, with this identifier. */
  predicate HasId(p: Product, id: nat) {
    p.id == id
  }

  function WithId(id: nat): Product -> bool {
    p => HasId(p, id)
  }

  /** The row a save with a non-zero identifier overwrites: the visible row with
      that identifier (the UPDATE), or failing that any row holding it (the
      upsert's conflict on the primary key). */
  function SaveTarget(t: ProductTable, id: nat): (r: Option<nat>)
    ensures r.Some? ==> r.value < |t.rows| && t.rows[r.value].id == id
    ensures r.None? <==> !IdTaken(t, id)
  {
    match Seqs.FirstIndex(t.rows, LiveWith(id))
    case Some(k) => Some(k)
    case None => Seqs.FirstIndex(t.rows, WithId(id))
  }

  /** The row a save leaves at its target: the UPDATE writes every column as
      given; the upsert stores the row as an insert would. Either way the row is
      no longer deleted. */
  function Saved(t: ProductTable, k: nat, p: Product): Product
    requires k < |t.rows|
  {
    if Visible(t.rows[k]) then p.(deleted := false) else Inserted(p, p.id)
  }

  /** GORM's `Save`, an upsert. A zero identifier makes it an insert. Otherwise
      it updates every column of the visible row with that identifier; if no
      row was updated it inserts the row under its own identifier, and a
      conflict on the primary key (a soft-deleted row) overwrites that row and
      brings it back. A value wider than its column fails first, as in an
      insert. A save never reports "not found". */
  function Update(t: ProductTable, cats: CategoryTable, p: Product): (r: Result<ProductTable>)
    ensures p.id == 0 || SaveTarget(t, p.id).None? ==> r == Create(t, cats, p)
    ensures p.id != 0 && SaveTarget(t, p.id).Some? ==>
      (r.Ok? <==> ProductFits(p) && !SkuTakenElsewhere(t, SaveTarget(t, p.id).value, p.sku)
                  && CategoryExists(cats, p.categoryId))
    ensures !ProductFits(p) ==> r == Fail(Storage, ValueTooLong)
    ensures ProductFits(p) && p.id != 0 && SaveTarget(t, p.id).Some?
            && SkuTakenElsewhere(t, SaveTarget(t, p.id).value, p.sku)
      ==> r == Fail(Storage, DuplicateSku)
    ensures p.id != 0 && SaveTarget(t, p.id).Some? && r.Ok? ==>
      r.value == ProductTable(t.rows[SaveTarget(t, p.id).value := Saved(t, SaveTarget(t, p.id).value, p)], t.nextId)
    ensures r.Err? ==> r.error in {Error(Storage, ValueTooLong), Error(Storage, DuplicateSku),
                                   Error(Storage, DuplicateId), Error(Storage, ForeignKeyViolation)}
  {
    if p.id == 0 then Create(t, cats, p)
    else
      match SaveTarget(t, p.id)
      case None => Create(t, cats, p)
      case Some(k) =>
        if !ProductFits(p) then Fail(Storage, ValueTooLong)
        else if SkuTakenElsewhere(t, k, p.sku) then Fail(Storage, DuplicateSku)
        else if !CategoryExists(cats, p.categoryId) then Fail(Storage, ForeignKeyViolation)
        else Ok(ProductTable(t.rows[k := Saved(t, k, p)], t.nextId))
  }
}

=== FILE: product_repository_laws.dfy ===
/** Properties of the product storage adapter that relate several calls or
    hold for every table: paging laws, filter semantics, sort direction, stock
    arithmetic, soft delete and the table's schema guarantees. */
module ProductRepositoryLaws {
  import opened Results
  import opened Models
  import opened ProductRepository
  import Seqs
  import Text
  import Pagination
  import Ordering

  // ---------------------------------------------------------------------------
  // Counting and paging

  /** Two filters that differ at most in sort and paging. */
  predicate SameCriteria(f: ProductFilter, g: ProductFilter) {
    && f.categoryId == g.categoryId
    && f.minPrice == g.minPrice
    && f.maxPrice == g.maxPrice
    && f.searchQuery == g.searchQuery
    && f.inStock == g.inStock
  }

  lemma SameCriteriaSameMatching(t: ProductTable, f: ProductFilter, g: ProductFilter)
    requires SameCriteria(f, g)
    ensures Matching(t, f) == Matching(t, g)
  {
    Seqs.FilterExt(t.rows, Selector(f), Selector(g));
  }

  /** The total is the size of the whole filtered set, whatever page, page size
      or order is asked for. */
  lemma TotalIndependentOfPagingAndSort(t: ProductTable, f: ProductFilter, g: ProductFilter)
    requires SameCriteria(f, g)
    ensures List(t, f).totalItems == List(t, g).totalItems
  {
    SameCriteriaSameMatching(t, f, g);
  }

  /** With no matching product there are no pages at all. */
  lemma NoItemsNoPages(t: ProductTable, f: ProductFilter)
    requires |Matching(t, f)| == 0
    ensures List(t, f).totalItems == 0 && List(t, f).totalPages == 0
    ensures List(t, f).items == []
  {
    var size := Pagination.NormalizePageSize(f.pageSize);
    Pagination.CeilDivZero(size);
    assert |Ordered(t, f)| == 0;
  }

  /** The listing of page `page` with everything else as in `f`. */
  function AtPage(f: ProductFilter, page: int): ProductFilter {
    f.(page := page)
  }

  /** Page `k` of a listing is the `k`-th slice of the ordered result set. */
  lemma ListAtPage(t: ProductTable, f: ProductFilter, k: int)
    requires k >= 1
    ensures List(t, AtPage(f, k)).items
         == Pagination.PageSlice(Ordered(t, f), k, Pagination.NormalizePageSize(f.pageSize))
  {
    SameCriteriaSameMatching(t, AtPage(f, k), f);
    assert KeyOf(AtPage(f, k)) == KeyOf(f);
  }

  /** The items a listing returns for page `k`: the `k`-th slice of the
      ordered result set. */
  function PageItems(t: ProductTable, f: ProductFilter, k: int): (r: seq<Product>)
    requires k >= 1
    ensures r == Pagination.PageSlice(Ordered(t, f), k, Pagination.NormalizePageSize(f.pageSize))
  {
    ListAtPage(t, f, k);
    List(t, AtPage(f, k)).items
  }

  /** Page j of the listing, as a reader that asks for pages 1, 2, ... sees it. */
  function Reader(t: ProductTable, f: ProductFilter): nat -> seq<Product> {
    j => if j >= 1 then PageItems(t, f, j) else []
  }

  /** The items of pages 1..k of a listing laid end to end. */
  function ListPages(t: ProductTable, f: ProductFilter, k: nat): seq<Product> {
    Pagination.Joined(Reader(t, f), k)
  }

  /** Reading pages 1..k of the tie-broken listing gives the first k pages of
      its ordered result set. */
  lemma ListPagesArePages(t: ProductTable, f: ProductFilter, k: nat)
    ensures ListPages(t, f, k)
         == Pagination.PagesUpTo(Ordered(t, f), Pagination.NormalizePageSize(f.pageSize), k)
  {
    var o := Ordered(t, f);
    var size := Pagination.NormalizePageSize(f.pageSize);
    forall j: nat | 1 <= j <= k ensures Reader(t, f)(j) == Pagination.PageSlice(o, j, size) {
      assert Reader(t, f)(j) == PageItems(t, f, j);
    }
    Pagination.JoinedPages(o, size, Reader(t, f), k);
  }

  /** Reading pages 1..totalPages of the tie-broken listing in turn yields every
      matching product exactly once, in the requested order. */
  lemma ListPagesReassemble(t: ProductTable, f: ProductFilter)
    ensures ListPages(t, f, List(t, f).totalPages) == Ordered(t, f)
  {
    var size := Pagination.NormalizePageSize(f.pageSize);
    ListPagesArePages(t, f, List(t, f).totalPages);
    Pagination.PagesCoverAll(Ordered(t, f), size);
  }

  /** Distinct rows of a valid table are distinct products, so the ordered
      result set has no repeated product. */
  lemma OrderedNoDup(t: ProductTable, f: ProductFilter)
    requires ValidProducts(t)
    ensures Seqs.NoDup(Ordered(t, f))
  {
    assert Seqs.NoDup(t.rows);
    Seqs.NoDupSubMultiset(t.rows, Matching(t, f));
    Seqs.NoDupSubMultiset(Matching(t, f), Ordered(t, f));
  }

  /** Two different pages of the tie-broken listing share no product. */
  lemma ListPagesDisjoint(t: ProductTable, f: ProductFilter, p: int, q: int)
    requires ValidProducts(t)
    requires p >= 1 && q >= 1 && p != q
    ensures forall x :: x in List(t, AtPage(f, p)).items ==> x !in List(t, AtPage(f, q)).items
  {
    SameCriteriaSameMatching(t, AtPage(f, p), f);
    SameCriteriaSameMatching(t, AtPage(f, q), f);
    OrderedNoDup(t, f);
    Pagination.PagesDisjoint(Ordered(t, f), p, q, Pagination.NormalizePageSize(f.pageSize));
  }

  /** A page has items exactly when its (normalised) number is at most the page count. */
  lemma ListPageNonEmptyIff(t: ProductTable, f: ProductFilter)
    ensures |List(t, f).items| > 0 <==> List(t, f).page <= List(t, f).totalPages
  {
    var r := List(t, f);
    Pagination.PageNonEmptyIff(Ordered(t, f), r.page, r.pageSize);
  }

  // ---------------------------------------------------------------------------
  // Ties across separate queries

  /** The key never ties two different matching rows. */
  predicate NoTies(t: ProductTable, f: ProductFilter) {
    forall a, b ::
      (a in Matching(t, f) && b in Matching(t, f)
       && Ordering.Leq(KeyOf(f), a, b) && Ordering.Leq(KeyOf(f), b, a)) ==> a == b
  }

  /** An arrangement of the filtered set, as the relation `Seqs.OrderedUnique`
      speaks of. */
  lemma SortedByIsOrderedBy(key: Ordering.SortKey, o: seq<Product>)
    requires Ordering.SortedBy(key, o)
    ensures Seqs.OrderedBy((a, b) => Ordering.Leq(key, a, b), o)
  {
    forall i, j | 0 <= i < j < |o| ensures Ordering.Leq(key, o[i], o[j]) {
    }
  }

  lemma ThenIdIsOrderedBy(key: Ordering.SortKey, o: seq<Product>)
    requires Ordering.SortedThenId(key, o)
    ensures Seqs.OrderedBy((a, b) => Ordering.Before(key, a, b), o)
  {
    forall i, j | 0 <= i < j < |o| ensures Ordering.Before(key, o[i], o[j]) {
    }
  }

  /** An element of an arrangement of the filtered set is a matching row. */
  lemma ArrangedMember(t: ProductTable, f: ProductFilter, o: seq<Product>, p: Product)
    requires multiset(o) == multiset(Matching(t, f)) && p in o
    ensures p in Matching(t, f) && p in t.rows
  {
    assert p in multiset(o);
  }

  /** When the key never ties, the store has no choice: every admissible
      arrangement is the model's order, so every call of the listing returns
      the model's page, and the paging laws above hold across separate calls. */
  lemma NoTiesListingIsList(t: ProductTable, f: ProductFilter, o: seq<Product>)
    requires Admissible(t, f, o) && NoTies(t, f)
    ensures o == Ordered(t, f)
    ensures ListWith(t, f, o) == List(t, f)
  {
    var le := (a, b) => Ordering.Leq(KeyOf(f), a, b);
    var m := Ordered(t, f);
    SortedByIsOrderedBy(KeyOf(f), o);
    SortedByIsOrderedBy(KeyOf(f), m);
    forall a, b | a in o && b in o && le(a, b) && le(b, a) ensures a == b {
      ArrangedMember(t, f, o, a);
      ArrangedMember(t, f, o, b);
    }
    Seqs.OrderedUnique(le, o, m);
  }

  /** The default order never ties in a valid table: identifiers are unique. */
  lemma DefaultOrderHasNoTies(t: ProductTable, f: ProductFilter)
    requires ValidProducts(t) && f.sortBy == Unsorted
    ensures NoTies(t, f)
  {
    forall a, b | a in Matching(t, f) && b in Matching(t, f)
      && Ordering.Leq(KeyOf(f), a, b) && Ordering.Leq(KeyOf(f), b, a)
      ensures a == b
    {
      if a != b {
        DistinctRowsDistinctIds(t, a, b);
      }
    }
  }

  /** With ties broken by identifier the store has no choice either, whatever
      the key: in a valid table every arrangement ordered by key then
      identifier is the model's order, so every call returns the model's page. */
  lemma ThenIdListingIsList(t: ProductTable, f: ProductFilter, o: seq<Product>)
    requires ValidProducts(t)
    requires Ordering.SortedThenId(KeyOf(f), o) && multiset(o) == multiset(Matching(t, f))
    ensures o == Ordered(t, f)
    ensures ListWith(t, f, o) == List(t, f)
  {
    var le := (a, b) => Ordering.Before(KeyOf(f), a, b);
    var m := Ordered(t, f);
    ThenIdIsOrderedBy(KeyOf(f), o);
    ThenIdIsOrderedBy(KeyOf(f), m);
    forall a, b | a in o && b in o && le(a, b) && le(b, a) ensures a == b {
      ArrangedMember(t, f, o, a);
      ArrangedMember(t, f, o, b);
      if a != b {
        DistinctRowsDistinctIds(t, a, b);
      }
    }
    Seqs.OrderedUnique(le, o, m);
    Ordering.ThenIdIsSorted(KeyOf(f), o);
  }

  /** Two products with the same price, listed by price one to a page. */
  const TieA: Product := Priced(1, 10)
  const TieB: Product := Priced(2, 10)
  const TiedTable: ProductTable := ProductTable([TieA, TieB], 3)
  const TiedFilter: ProductFilter := ProductFilter(None, None, None, "", None, Column(Price), "", 1, 1)

  lemma TiedMatching(f: ProductFilter)
    requires SameCriteria(f, TiedFilter)
    ensures Matching(TiedTable, f) == [TieA, TieB]
  {
    SameCriteriaSameMatching(TiedTable, f, TiedFilter);
    NoFiltersListsEveryVisible(TiedTable, TiedFilter);
    Seqs.FilterAll(TiedTable.rows, Visible);
  }

  /** Without a tie-breaker the listing as written may repeat one product and
      skip another: the query for page 1 may see the tied pair one way round
      and the query for page 2 the other way, so both pages hold `TieA` and no
      page holds `TieB`. */
  lemma TiedPagesRepeatAndSkip()
    ensures Admissible(TiedTable, TiedFilter, [TieA, TieB])
    ensures Admissible(TiedTable, AtPage(TiedFilter, 2), [TieB, TieA])
    ensures ListWith(TiedTable, TiedFilter, [TieA, TieB]).items == [TieA]
    ensures ListWith(TiedTable, AtPage(TiedFilter, 2), [TieB, TieA]).items == [TieA]
    ensures ListWith(TiedTable, TiedFilter, [TieA, TieB]).totalPages == 2
  {
    TiedMatching(TiedFilter);
    TiedMatching(AtPage(TiedFilter, 2));
    assert KeyOf(TiedFilter) == KeyOf(AtPage(TiedFilter, 2)) == Ordering.SortKey(Price, false);
    assert multiset([TieB, TieA]) == multiset([TieA, TieB]);
    assert Ordering.SortedBy(Ordering.SortKey(Price, false), [TieB, TieA]);
    assert Pagination.PageSlice([TieB, TieA], 2, 1) == [TieA];
  }

  // ---------------------------------------------------------------------------
  // Filters

  /** Every filter absent (and `inStock` not true): every visible product is listed. */
  lemma NoFiltersListsEveryVisible(t: ProductTable, f: ProductFilter)
    requires f.categoryId.None? && f.minPrice.None? && f.maxPrice.None?
    requires f.searchQuery == "" && f.inStock != Some(true)
    ensures Matching(t, f) == VisibleRows(t)
  {
    Seqs.FilterExt(t.rows, Selector(f), Visible);
  }

  /** `inStock = true` keeps exactly the products with positive stock among
      those the other filters select. */
  lemma InStockKeepsPositiveStock(t: ProductTable, f: ProductFilter)
    requires f.inStock == Some(true)
    ensures Matching(t, f) == Seqs.Filter(Matching(t, f.(inStock := None)), HasStock)
  {
    Seqs.FilterFilter(t.rows, Selector(f.(inStock := None)), HasStock, Selector(f));
  }

  /** `inStock = false` filters nothing. */
  lemma InStockFalseFiltersNothing(t: ProductTable, f: ProductFilter)
    ensures Matching(t, f.(inStock := Some(false))) == Matching(t, f.(inStock := None))
  {
    Seqs.FilterExt(t.rows, Selector(f.(inStock := Some(false))), Selector(f.(inStock := None)));
  }

  /** The listing's text filter ignores letter case in the query. */
  lemma TextFilterIgnoresCase(f: ProductFilter, p: Product)
    ensures TextMatches(f.(searchQuery := Text.Upper(f.searchQuery)), p) == TextMatches(f, p)
  {
    Text.ContainsFoldIgnoresCase(p.name, f.searchQuery);
    Text.ContainsFoldIgnoresCase(p.description, f.searchQuery);
  }

  /** The listing's filter never looks at the SKU. */
  lemma ListIgnoresSku(f: ProductFilter, p: Product, sku: string)
    ensures Selects(f, p.(sku := sku)) == Selects(f, p)
  {
  }

  /** Search finds a visible product whose SKU alone contains the query. */
  lemma SearchFindsBySku(t: ProductTable, query: string, p: Product)
    requires p in t.rows && Visible(p) && Text.ContainsFold(p.sku, query)
    ensures p in SearchMatching(t, query)
  {
  }

  /** Everything the listing's text filter finds, search finds too. */
  lemma SearchCoversListText(t: ProductTable, f: ProductFilter)
    requires f.searchQuery != ""
    ensures forall p :: p in Matching(t, f) ==> p in SearchMatching(t, f.searchQuery)
  {
  }

  /** A product whose SKU, but not its name or description, contains the query:
      search returns it while the listing's text filter does not. */
  lemma SkuOnlyMatchExample()
    ensures var p := Product(1, "Earbuds", "", 4999, "AUD-001", 10, "", 1, true, false);
            var f := ProductFilter(None, None, None, "aud-001", None, Unsorted, "", 1, 20);
            SearchSelects("aud-001", p) && !TextMatches(f, p)
  {
    var p := Product(1, "Earbuds", "", 4999, "AUD-001", 10, "", 1, true, false);
    assert Text.OccursAt(Text.Lower(p.sku), Text.Lower("aud-001"), 0);
    assert Text.Lower("aud-001")[0] == 'a' && Text.Lower(p.name)[0] == 'e';
    assert !Text.OccursAt(Text.Lower(p.name), Text.Lower("aud-001"), 0);
  }

  // ---------------------------------------------------------------------------
  // Order

  /** A listing is descending exactly when a column is named and its direction
      is "desc" in any letter case. */
  lemma DescendingIff(f: ProductFilter)
    ensures KeyOf(f).descending <==> f.sortBy.Column? && Text.Lower(f.sortDirection) == "desc"
  {
    Text.UpperDescIffLowerDesc(f.sortDirection);
  }

  /** Two different products of a valid table have different identifiers. */
  lemma DistinctRowsDistinctIds(t: ProductTable, p: Product, q: Product)
    requires ValidProducts(t) && p in t.rows && q in t.rows && p != q
    ensures p.id != q.id
  {
    var a :| 0 <= a < |t.rows| && t.rows[a] == p;
    var b :| 0 <= b < |t.rows| && t.rows[b] == q;
    assert a != b;
  }

  /** Rows of a valid table in identifier order, without repeats, have strictly
      ascending identifiers. */
  lemma StrictlyAscendingIds(t: ProductTable, items: seq<Product>)
    requires ValidProducts(t) && Seqs.NoDup(items)
    requires Ordering.SortedBy(Ordering.ById, items)
    requires forall p :: p in items ==> p in t.rows
    ensures forall i, j :: 0 <= i < j < |items| ==> items[i].id < items[j].id
  {
    forall i, j | 0 <= i < j < |items| ensures items[i].id < items[j].id {
      assert Ordering.Leq(Ordering.ById, items[i], items[j]);
      DistinctRowsDistinctIds(t, items[i], items[j]);
    }
  }

  /** Without a sort column, a page lists strictly ascending identifiers, whatever
      direction was asked for. */
  lemma DefaultOrderAscendingIds(t: ProductTable, f: ProductFilter)
    requires ValidProducts(t) && f.sortBy == Unsorted
    ensures var items := List(t, f).items;
            forall i, j :: 0 <= i < j < |items| ==> items[i].id < items[j].id
  {
    var r := List(t, f);
    OrderedNoDup(t, f);
    Pagination.PageSliceNoDup(Ordered(t, f), r.page, r.pageSize);
    assert KeyOf(f) == Ordering.ById;
    StrictlyAscendingIds(t, r.items);
  }

  /** Three products priced 10, 20 and 30, and a listing by price descending,
      two to a page. */
  const ExampleTable: ProductTable := ProductTable([Priced(1, 10), Priced(2, 20), Priced(3, 30)], 4)
  const ExampleFilter: ProductFilter := ProductFilter(None, None, None, "", None, Column(Price), "desc", 1, 2)

  lemma ExampleKey()
    ensures KeyOf(ExampleFilter) == Ordering.SortKey(Price, true)
  {
    assert Text.Upper("desc") == "DESC";
  }

  lemma ExampleMatching()
    ensures Matching(ExampleTable, ExampleFilter) == ExampleTable.rows
  {
    NoFiltersListsEveryVisible(ExampleTable, ExampleFilter);
    Seqs.FilterAll(ExampleTable.rows, Visible);
  }

  lemma ExampleSort()
    ensures Ordering.Sort(Ordering.SortKey(Price, true), ExampleTable.rows)
         == [Priced(3, 30), Priced(2, 20), Priced(1, 10)]
  {
    var key := Ordering.SortKey(Price, true);
    var rows := ExampleTable.rows;
    assert rows[1..] == [Priced(2, 20), Priced(3, 30)];
    assert rows[1..][1..] == [Priced(3, 30)];
    assert Ordering.Sort(key, [Priced(3, 30)]) == [Priced(3, 30)];
    assert Ordering.Sort(key, rows[1..]) == [Priced(3, 30), Priced(2, 20)];
    assert Ordering.Insert(key, Priced(1, 10), [Priced(2, 20)]) == [Priced(2, 20), Priced(1, 10)];
  }

  lemma ExampleOrdered()
    ensures Ordered(ExampleTable, ExampleFilter) == [Priced(3, 30), Priced(2, 20), Priced(1, 10)]
  {
    ExampleKey();
    ExampleMatching();
    ExampleSort();
  }

  /** A three-item ordered result, two to a page: page 1 holds the first two
      items, page 2 the third, and there are two pages. With `ExampleOrdered`
      this gives [30, 20] then [10] for the example listing. */
  lemma ThreeItemsTwoPerPage(t: ProductTable, f: ProductFilter, o: seq<Product>)
    requires Ordered(t, f) == o && |o| == 3
    requires f.page == 1 && f.pageSize == 2
    ensures List(t, f).items == o[0..2]
    ensures List(t, AtPage(f, 2)).items == o[2..3]
    ensures List(t, f).totalPages == 2
  {
    SameCriteriaSameMatching(t, AtPage(f, 2), f);
  }

  /** An active, visible product with only an identifier and a price. */
  function Priced(id: nat, price: int): Product {
    Product(id, "", "", price, "", 1, "", 0, true, false)
  }

  // ---------------------------------------------------------------------------
  // Stock

  /** Adding a delta and then its negation restores the table. */
  lemma UpdateStockRoundTrip(t: ProductTable, id: nat, delta: int)
    ensures UpdateStock(UpdateStock(t, id, delta), id, -delta) == t
  {
    var r := UpdateStock(UpdateStock(t, id, delta), id, -delta);
    assert r.rows == t.rows by {
      forall i | 0 <= i < |t.rows| ensures r.rows[i] == t.rows[i] {
        assert r.rows[i].(stockLevel := 0) == t.rows[i].(stockLevel := 0);
      }
    }
  }

  /** Two adjustments of one product add up: no update is lost. */
  lemma UpdateStockAccumulates(t: ProductTable, id: nat, a: int, b: int)
    ensures UpdateStock(UpdateStock(t, id, a), id, b) == UpdateStock(t, id, a + b)
  {
    var r := UpdateStock(UpdateStock(t, id, a), id, b);
    var s := UpdateStock(t, id, a + b);
    assert r.rows == s.rows by {
      forall i | 0 <= i < |t.rows| ensures r.rows[i] == s.rows[i] {
        assert r.rows[i].(stockLevel := 0) == s.rows[i].(stockLevel := 0);
      }
    }
  }

  /** Adjustments commute, for the same or different products. */
  lemma UpdateStockCommutes(t: ProductTable, id1: nat, a: int, id2: nat, b: int)
    ensures UpdateStock(UpdateStock(t, id1, a), id2, b) == UpdateStock(UpdateStock(t, id2, b), id1, a)
  {
    var r := UpdateStock(UpdateStock(t, id1, a), id2, b);
    var s := UpdateStock(UpdateStock(t, id2, b), id1, a);
    assert r.rows == s.rows by {
      forall i | 0 <= i < |t.rows| ensures r.rows[i] == s.rows[i] {
        assert r.rows[i].(stockLevel := 0) == s.rows[i].(stockLevel := 0);
      }
    }
  }

  /** Draining a product's whole stock removes it from an in-stock listing. */
  lemma DrainedProductLeavesInStockListing(t: ProductTable, f: ProductFilter, k: nat)
    requires ValidProducts(t) && k < |t.rows| && Visible(t.rows[k])
    requires f.inStock == Some(true)
    ensures forall p :: p in Matching(UpdateStock(t, t.rows[k].id, -t.rows[k].stockLevel), f)
                        ==> p.id != t.rows[k].id
  {
    var id := t.rows[k].id;
    var u := UpdateStock(t, id, -t.rows[k].stockLevel);
    forall p | p in Matching(u, f) ensures p.id != id {
      var i :| 0 <= i < |u.rows| && u.rows[i] == p;
      if i != k {
        assert t.rows[i].id != t.rows[k].id;
      }
    }
  }

  /** Adjusting a product's stock moves the stock a lookup reports by exactly the
      delta, and changes nothing else about the lookup. */
  lemma UpdateStockThenGet(t: ProductTable, id: nat, delta: int)
    ensures GetByID(UpdateStock(t, id, delta), id).Ok? == GetByID(t, id).Ok?
    ensures GetByID(t, id).Ok? ==>
      GetByID(UpdateStock(t, id, delta), id).value
        == GetByID(t, id).value.(stockLevel := GetByID(t, id).value.stockLevel + delta)
  {
    var u := UpdateStock(t, id, delta);
    forall i | 0 <= i < |t.rows| ensures LiveWith(id)(u.rows[i]) == LiveWith(id)(t.rows[i]) {
      assert u.rows[i].(stockLevel := 0) == t.rows[i].(stockLevel := 0);
    }
    Seqs.FirstIndexSame(u.rows, t.rows, LiveWith(id), LiveWith(id));
    var k := Seqs.FirstIndex(t.rows, LiveWith(id));
    if k.Some? {
      assert u.rows[k.value].(stockLevel := 0) == t.rows[k.value].(stockLevel := 0);
    }
  }

  // ---------------------------------------------------------------------------
  // Soft delete

  /** A deleted product can no longer be looked up. */
  lemma DeleteThenGetFails(t: ProductTable, id: nat)
    ensures GetByID(Delete(t, id), id) == Err(Error(NotFound, ProductNotFound))
  {
    var d := Delete(t, id);
    forall i | 0 <= i < |d.rows| ensures !IsLive(d.rows[i], id) {
      assert d.rows[i].(deleted := false) == t.rows[i].(deleted := false);
    }
  }

  /** Deleting twice is deleting once. */
  lemma DeleteIdempotent(t: ProductTable, id: nat)
    ensures Delete(Delete(t, id), id) == Delete(t, id)
  {
    var d := Delete(t, id);
    var dd := Delete(d, id);
    assert dd.rows == d.rows by {
      forall i | 0 <= i < |d.rows| ensures dd.rows[i] == d.rows[i] {
        assert dd.rows[i].(deleted := false) == d.rows[i].(deleted := false);
        assert d.rows[i].(deleted := false) == t.rows[i].(deleted := false);
      }
    }
  }

  /** Deleting one product leaves every other product's lookup as it was. */
  lemma DeleteKeepsOthers(t: ProductTable, id: nat, other: nat)
    requires other != id
    ensures GetByID(Delete(t, id), other) == GetByID(t, other)
  {
    var d := Delete(t, id);
    forall i | 0 <= i < |t.rows| ensures LiveWith(other)(d.rows[i]) == LiveWith(other)(t.rows[i]) {
      assert d.rows[i].(deleted := false) == t.rows[i].(deleted := false);
    }
    Seqs.FirstIndexSame(d.rows, t.rows, LiveWith(other), LiveWith(other));
    var k := Seqs.FirstIndex(t.rows, LiveWith(other));
    if k.Some? {
      assert d.rows[k.value].(deleted := false) == t.rows[k.value].(deleted := false);
    }
  }

  // ---------------------------------------------------------------------------
  // Schema guarantees

  lemma UpdateStockPreservesValid(t: ProductTable, id: nat, delta: int)
    requires ValidProducts(t)
    ensures ValidProducts(UpdateStock(t, id, delta))
  {
    var u := UpdateStock(t, id, delta);
    forall i | 0 <= i < |t.rows| ensures u.rows[i].id == t.rows[i].id && u.rows[i].sku == t.rows[i].sku {
      assert u.rows[i].(stockLevel := 0) == t.rows[i].(stockLevel := 0);
    }
  }

  lemma DeletePreservesValid(t: ProductTable, id: nat)
    requires ValidProducts(t)
    ensures ValidProducts(Delete(t, id))
  {
    var d := Delete(t, id);
    forall i | 0 <= i < |t.rows| ensures d.rows[i].id == t.rows[i].id && d.rows[i].sku == t.rows[i].sku {
      assert d.rows[i].(deleted := false) == t.rows[i].(deleted := false);
    }
  }

  /** An insertion keeps identifiers and SKUs unique, and the new row can be
      looked up under the identifier it was given. */
  lemma CreatePreservesValid(t: ProductTable, cats: CategoryTable, p: Product)
    requires ValidProducts(t) && Create(t, cats, p).Ok?
    ensures ValidProducts(Create(t, cats, p).value)
    ensures GetByID(Create(t, cats, p).value, NewId(t, p)) == Ok(Inserted(p, NewId(t, p)))
  {
    var c := Create(t, cats, p).value;
    var id := NewId(t, p);
    assert c.rows[|t.rows|] == Inserted(p, id);
    forall i | 0 <= i < |t.rows| ensures !IsLive(c.rows[i], id) {
      assert c.rows[i] == t.rows[i];
    }
  }

  /** A save keeps identifiers and SKUs unique. */
  lemma UpdatePreservesValid(t: ProductTable, cats: CategoryTable, p: Product)
    requires ValidProducts(t) && Update(t, cats, p).Ok?
    ensures ValidProducts(Update(t, cats, p).value)
  {
    if p.id == 0 || SaveTarget(t, p.id).None? {
      CreatePreservesValid(t, cats, p);
    } else {
      var k := SaveTarget(t, p.id).value;
      assert !SkuTakenElsewhere(t, k, p.sku);
    }
  }

  /** Every write keeps each stored product within its column widths: an insert
      or save of a wider value fails, and the stock and delete updates change no
      bounded column. */
  lemma WritesKeepRowsFit(t: ProductTable, cats: CategoryTable, p: Product, id: nat, delta: int)
    requires ProductRowsFit(t)
    ensures Create(t, cats, p).Ok? ==> ProductRowsFit(Create(t, cats, p).value)
    ensures Update(t, cats, p).Ok? ==> ProductRowsFit(Update(t, cats, p).value)
    ensures ProductRowsFit(UpdateStock(t, id, delta))
    ensures ProductRowsFit(Delete(t, id))
  {
    if Create(t, cats, p).Ok? {
      assert Create(t, cats, p).value.rows[|t.rows|] == Inserted(p, NewId(t, p));
    }
    if Update(t, cats, p).Ok? && p.id != 0 && SaveTarget(t, p.id).Some? {
      var k := SaveTarget(t, p.id).value;
      assert Update(t, cats, p).value.rows[k] == Saved(t, k, p);
    }
    var s := UpdateStock(t, id, delta);
    forall i | 0 <= i < |s.rows| ensures ProductFits(s.rows[i]) {
      assert s.rows[i].(stockLevel := 0) == t.rows[i].(stockLevel := 0);
    }
    var d := Delete(t, id);
    forall i | 0 <= i < |d.rows| ensures ProductFits(d.rows[i]) {
      assert d.rows[i].(deleted := false) == t.rows[i].(deleted := false);
    }
  }

  /** The SKU column holds fifty characters and no more: into an empty table
      with its category present, a fifty-character SKU is stored and a
      fifty-one-character one is refused as too long. */
  lemma SkuWidthBoundary()
    ensures Create(ProductTable([], 1), WidthCategories(), WidthProduct(50)).Ok?
    ensures Create(ProductTable([], 1), WidthCategories(), WidthProduct(51)) == Fail(Storage, ValueTooLong)
  {
    assert WidthCategories().rows[0].id == 1;
  }

  function WidthCategories(): CategoryTable {
    CategoryTable([Category(1, "Phones", "", None, "", true, false)], 2)
  }

  function WidthProduct(skuLength: nat): Product {
    Product(0, "Phone", "", 100, seq(skuLength, i => 'a'), 0, "", 1, true, false)
  }

  /** After a successful save under a non-zero identifier, looking that
      identifier up returns the saved columns. This holds for a soft-deleted
      row too, which the save brings back, and for an identifier no row held,
      which the save inserts. Only `isActive` may differ: a row that goes
      through the insert stores the column's default for false. */
  lemma UpdateThenGet(t: ProductTable, cats: CategoryTable, p: Product)
    requires ValidProducts(t) && p.id != 0 && Update(t, cats, p).Ok?
    ensures GetByID(Update(t, cats, p).value, p.id).Ok?
    ensures GetByID(Update(t, cats, p).value, p.id).value.(isActive := p.isActive) == p.(deleted := false)
  {
    var u := Update(t, cats, p).value;
    UpdatePreservesValid(t, cats, p);
    var k: nat;
    if SaveTarget(t, p.id).None? {
      CreatePreservesValid(t, cats, p);
      k := |t.rows|;
      assert u.rows[k] == Inserted(p, p.id);
    } else {
      k := SaveTarget(t, p.id).value;
      assert u.rows[k] == Saved(t, k, p);
    }
    assert IsLive(u.rows[k], p.id);
    var g := Seqs.FirstIndex(u.rows, LiveWith(p.id)).value;
    assert u.rows[g].id == u.rows[k].id;
  }
}

=== FILE: product_service.dfy ===
/** The product service: short-circuiting validation in front of the product
    repository. A request that fails a check never reaches the repository, so
    the caller's table stays as it was. */
module ProductService {
  import opened Results
  import opened Models
  import ProductRepository

  const NameRequired: string := "product name is required"
  const PriceNotPositive: string := "product price must be greater than zero"
  const SkuRequired: string := "product SKU is required"

  /** The checks shared by creation and update, in order: name, then price. */
  function CheckNameAndPrice(p: Product): Option<Error> {
    if p.name == "" then Some(Error(Validation, NameRequired))
    else if p.price <= 0 then Some(Error(Validation, PriceNotPositive))
    else None
  }

  /** The first failing creation check: name, then price, then SKU. */
  function CheckCreate(p: Product): Option<Error> {
    if CheckNameAndPrice(p).Some? then CheckNameAndPrice(p)
    else if p.sku == "" then Some(Error(Validation, SkuRequired))
    else None
  }

  /** A product that passes every creation check. */
  predicate Acceptable(p: Product) {
    p.name != "" && p.price > 0 && p.sku != ""
  }

  function CreateProduct(t: ProductTable, cats: CategoryTable, p: Product): (r: Result<ProductTable>)
    ensures p.name == "" ==> r == Err(Error(Validation, NameRequired))
    ensures p.name != "" && p.price <= 0 ==> r == Err(Error(Validation, PriceNotPositive))
    ensures p.name != "" && p.price > 0 && p.sku == "" ==> r == Err(Error(Validation, SkuRequired))
    ensures Acceptable(p) ==> r == ProductRepository.Create(t, cats, p)
    ensures (r.Err? && r.error.kind == Validation) <==> !Acceptable(p)
    ensures r.Ok? ==> |r.value.rows| == |t.rows| + 1 && Acceptable(r.value.rows[|t.rows|])
  {
    match CheckCreate(p)
    case Some(e) => Err(e)
    case None => ProductRepository.Create(t, cats, p)
  }

  function GetProductByID(t: ProductTable, id: nat): (r: Result<Product>)
    ensures r == ProductRepository.GetByID(t, id)
  {
    ProductRepository.GetByID(t, id)
  }

  /** Update checks name and price only; an empty SKU goes through. */
  function UpdateProduct(t: ProductTable, cats: CategoryTable, p: Product): (r: Result<ProductTable>)
    ensures p.name == "" ==> r == Err(Error(Validation, NameRequired))
    ensures p.name != "" && p.price <= 0 ==> r == Err(Error(Validation, PriceNotPositive))
    ensures p.name != "" && p.price > 0 ==> r == ProductRepository.Update(t, cats, p)
    ensures (r.Err? && r.error.kind == Validation) <==> (p.name == "" || p.price <= 0)
  {
    match CheckNameAndPrice(p)
    case Some(e) => Err(e)
    case None => ProductRepository.Update(t, cats, p)
  }

  function DeleteProduct(t: ProductTable, id: nat): (r: ProductTable)
    ensures r == ProductRepository.Delete(t, id)
  {
    ProductRepository.Delete(t, id)
  }

  function ListProducts(t: ProductTable, f: ProductFilter): (r: PaginatedResponse)
    ensures r == ProductRepository.List(t, f)
  {
    ProductRepository.List(t, f)
  }

  function UpdateStock(t: ProductTable, id: nat, quantity: int): (r: ProductTable)
    ensures r == ProductRepository.UpdateStock(t, id, quantity)
  {
    ProductRepository.UpdateStock(t, id, quantity)
  }

  // ---------------------------------------------------------------------------
  // Properties

  /** The first failing check is the one reported, whatever later fields hold. */
  lemma FirstFailureWins(t: ProductTable, cats: CategoryTable, p: Product, price: int, sku: string)
    requires p.name == ""
    ensures CreateProduct(t, cats, p.(price := price, sku := sku)) == CreateProduct(t, cats, p)
  {
  }

  /** A product with an empty SKU is refused by creation but not by the update
      checks: the update goes to the repository. */
  lemma UpdateSkipsSkuCheck(t: ProductTable, cats: CategoryTable, p: Product)
    requires p.name != "" && p.price > 0 && p.sku == ""
    ensures CreateProduct(t, cats, p) == Err(Error(Validation, SkuRequired))
    ensures UpdateProduct(t, cats, p) == ProductRepository.Update(t, cats, p)
  {
  }

  /** A table built only through the service holds acceptable products only. */
  predicate AllAcceptable(t: ProductTable) {
    forall i :: 0 <= i < |t.rows| ==> Acceptable(t.rows[i])
  }

  lemma CreateKeepsAllAcceptable(t: ProductTable, cats: CategoryTable, p: Product)
    requires AllAcceptable(t) && CreateProduct(t, cats, p).Ok?
    ensures AllAcceptable(CreateProduct(t, cats, p).value)
  {
    var n := CreateProduct(t, cats, p).value;
    forall i | 0 <= i < |n.rows| ensures Acceptable(n.rows[i]) {
      if i < |t.rows| {
        assert n.rows[i] == t.rows[i];
      }
    }
  }

  /** Stock moves and deletions touch neither name, price nor SKU, so a table of
      acceptable products stays one. */
  lemma UpdateStockKeepsAllAcceptable(t: ProductTable, id: nat, quantity: int)
    requires AllAcceptable(t)
    ensures AllAcceptable(UpdateStock(t, id, quantity))
  {
    var n := UpdateStock(t, id, quantity);
    forall i | 0 <= i < |n.rows| ensures Acceptable(n.rows[i]) {
      assert n.rows[i].(stockLevel := 0) == t.rows[i].(stockLevel := 0);
    }
  }

  lemma DeleteKeepsAllAcceptable(t: ProductTable, id: nat)
    requires AllAcceptable(t)
    ensures AllAcceptable(DeleteProduct(t, id))
  {
    var n := DeleteProduct(t, id);
    forall i | 0 <= i < |n.rows| ensures Acceptable(n.rows[i]) {
      assert n.rows[i].(deleted := false) == t.rows[i].(deleted := false);
    }
  }
}

=== FILE: results.dfy ===
/** Optional values, error kinds and the success-or-error result shared by every
    operation of the catalogue and the order service. */
module Results {

  /** A value that may be absent: a nil pointer in Go, `undefined` in JavaScript. */
  datatype Option<+T> = None | Some(value: T)

  /** The kinds of failure an operation reports: input that breaks a business rule,
      a missing record, a referential-integrity conflict, or a failure raised by the
      underlying store (a unique index, a schema validator). */
  datatype ErrorKind = Validation | NotFound | Conflict | Storage

  /** A distinguishable kind plus the human-readable message the source returns. */
  datatype Error = Error(kind: ErrorKind, message: string)

  datatype Result<+T> = Ok(value: T) | Err(error: Error) {

    predicate IsFailure() {
      Err?
    }

    function PropagateFailure<U>(): Result<U>
      requires Err?
    {
      Err(error)
    }

    function Extract(): T
      requires Ok?
    {
      value
    }
  }

  function Fail<T>(kind: ErrorKind, message: string): Result<T> {
    Err(Error(kind, message))
  }
}

=== FILE: seqs.dfy ===
/** Sequence helpers: order-preserving selection and duplicate-freedom. */
module Seqs {
  import opened Results

  /** How often `x` occurs in `xs`. */
  function Count<T(==)>(xs: seq<T>, x: T): nat {
    multiset(xs)[x]
  }

  /** The elements of `xs` that satisfy `keep`, in their original order: the
      in-memory counterpart of a SQL `WHERE` clause. */
  function Filter<T(==)>(xs: seq<T>, keep: T -> bool): (r: seq<T>)
    ensures |r| <= |xs|
    ensures forall x | x in r :: x in xs && keep(x)
    ensures forall x | x in xs && keep(x) :: x in r
    ensures multiset(r) <= multiset(xs)
    ensures forall x {:trigger Count(r, x)} | x in xs :: Count(r, x) == if keep(x) then Count(xs, x) else 0
  {
    if |xs| == 0 then []
    else
      assert xs == [xs[0]] + xs[1..];
      assert multiset(xs) == multiset{xs[0]} + multiset(xs[1..]);
      var rest := Filter(xs[1..], keep);
      var r := if keep(xs[0]) then [xs[0]] + rest else rest;
      assert multiset(r) == if keep(xs[0]) then multiset{xs[0]} + multiset(rest) else multiset(rest);
      assert forall x {:trigger Count(r, x)} | x in xs :: Count(r, x) == if keep(x) then Count(xs, x) else 0 by {
        forall x | x in xs ensures Count(r, x) == if keep(x) then Count(xs, x) else 0 {
          if x !in xs[1..] {
            assert Count(xs[1..], x) == 0;
            assert Count(rest, x) == 0;
          } else {
            assert Count(rest, x) == if keep(x) then Count(xs[1..], x) else 0;
          }
        }
      }
      r
  }

  /** Filtering distributes over concatenation: the selection keeps the
      relative order of the elements it keeps. */
  lemma {:induction false} FilterConcat<T>(xs: seq<T>, ys: seq<T>, keep: T -> bool)
    ensures Filter(xs + ys, keep) == Filter(xs, keep) + Filter(ys, keep)
  {
    if |xs| > 0 {
      assert (xs + ys)[1..] == xs[1..] + ys;
      FilterConcat(xs[1..], ys, keep);
    } else {
      assert xs + ys == ys;
    }
  }

  /** Two predicates that agree everywhere select the same sub-sequence. */
  lemma {:induction false} FilterExt<T>(xs: seq<T>, a: T -> bool, b: T -> bool)
    requires forall x :: x in xs ==> a(x) == b(x)
    ensures Filter(xs, a) == Filter(xs, b)
  {
    if |xs| > 0 {
      FilterExt(xs[1..], a, b);
    }
  }

  /** A filter that keeps every element is the identity. */
  lemma {:induction false} FilterAll<T>(xs: seq<T>, keep: T -> bool)
    requires forall x :: x in xs ==> keep(x)
    ensures Filter(xs, keep) == xs
  {
    if |xs| > 0 {
      FilterAll(xs[1..], keep);
    }
  }

  /** Filtering twice is filtering once by the conjunction. */
  lemma {:induction false} FilterFilter<T>(xs: seq<T>, a: T -> bool, b: T -> bool, both: T -> bool)
    requires forall x :: x in xs ==> both(x) == (a(x) && b(x))
    ensures Filter(Filter(xs, a), b) == Filter(xs, both)
  {
    if |xs| > 0 {
      FilterFilter(xs[1..], a, b, both);
    }
  }

  /** No value occurs twice. */
  predicate NoDup<T(==)>(xs: seq<T>) {
    forall i, j :: 0 <= i < j < |xs| ==> xs[i] != xs[j]
  }

  /** Duplicate-freedom stated through occurrence counts. */
  predicate AtMostOnce<T(==)>(xs: seq<T>) {
    forall x | x in multiset(xs) :: multiset(xs)[x] <= 1
  }

  lemma {:induction false} NoDupAtMostOnce<T>(xs: seq<T>)
    ensures NoDup(xs) <==> AtMostOnce(xs)
  {
    if |xs| > 0 {
      assert xs == [xs[0]] + xs[1..];
      NoDupAtMostOnce(xs[1..]);
      if NoDup(xs) {
        assert NoDup(xs[1..]) by {
          forall i, j | 0 <= i < j < |xs[1..]| ensures xs[1..][i] != xs[1..][j] {
            assert xs[1..][i] == xs[i + 1] && xs[1..][j] == xs[j + 1];
          }
        }
        assert xs[0] !in xs[1..] by {
          forall k | 0 <= k < |xs[1..]| ensures xs[1..][k] != xs[0] {
            assert xs[1..][k] == xs[k + 1];
          }
        }
        forall x | x in multiset(xs) ensures multiset(xs)[x] <= 1 {
          assert multiset(xs)[x] == multiset([xs[0]])[x] + multiset(xs[1..])[x];
        }
      }
      if AtMostOnce(xs) {
        assert AtMostOnce(xs[1..]) by {
          forall x | x in multiset(xs[1..]) ensures multiset(xs[1..])[x] <= 1 {
            assert multiset(xs)[x] == multiset([xs[0]])[x] + multiset(xs[1..])[x];
          }
        }
        forall i, j | 0 <= i < j < |xs| ensures xs[i] != xs[j] {
          if i == 0 {
            assert xs[j] == xs[1..][j - 1];
            assert xs[j] in multiset(xs[1..]);
            assert multiset(xs)[xs[0]] == 1 + multiset(xs[1..])[xs[0]];
          } else {
            assert xs[i] == xs[1..][i - 1] && xs[j] == xs[1..][j - 1];
          }
        }
      }
    }
  }

  /** A sub-multiset or a permutation of a duplicate-free sequence is duplicate-free. */
  lemma NoDupSubMultiset<T>(xs: seq<T>, ys: seq<T>)
    requires NoDup(xs)
    requires multiset(ys) <= multiset(xs)
    ensures NoDup(ys)
  {
    NoDupAtMostOnce(xs);
    NoDupAtMostOnce(ys);
  }

  /** The position of the first element satisfying `hit`, as JavaScript's
      `findIndex` and SQL's `First` report it; None when there is none. */
  function FirstIndex<T>(xs: seq<T>, hit: T -> bool): (r: Option<nat>)
    ensures r.Some? ==> r.value < |xs| && hit(xs[r.value])
    ensures r.Some? ==> forall j :: 0 <= j < r.value ==> !hit(xs[j])
    ensures r.None? ==> forall j :: 0 <= j < |xs| ==> !hit(xs[j])
  {
    if |xs| == 0 then None
    else if hit(xs[0]) then Some(0)
    else
      match FirstIndex(xs[1..], hit)
      case None => None
      case Some(k) => Some(k + 1)
  }

  /** Two sequences with the same pattern of hits have the same first hit. */
  lemma {:induction false} FirstIndexSame<T, U>(xs: seq<T>, ys: seq<U>, a: T -> bool, b: U -> bool)
    requires |xs| == |ys|
    requires forall i :: 0 <= i < |xs| ==> a(xs[i]) == b(ys[i])
    ensures FirstIndex(xs, a) == FirstIndex(ys, b)
  {
    if |xs| > 0 {
      FirstIndexSame(xs[1..], ys[1..], a, b);
    }
  }

  /** Ordered under `le` at every pair of positions. */
  predicate OrderedBy<T>(le: (T, T) -> bool, xs: seq<T>) {
    forall i, j :: 0 <= i < j < |xs| ==> le(xs[i], xs[j])
  }

  /** Dropping the first element removes one occurrence of it. */
  lemma TailMultiset<T>(xs: seq<T>)
    requires |xs| > 0
    ensures multiset(xs[1..]) == multiset(xs) - multiset{xs[0]}
  {
    assert xs == [xs[0]] + xs[1..];
  }

  lemma OrderedTail<T>(le: (T, T) -> bool, xs: seq<T>)
    requires OrderedBy(le, xs) && |xs| > 0
    ensures OrderedBy(le, xs[1..])
  {
    forall i, j | 0 <= i < j < |xs[1..]| ensures le(xs[1..][i], xs[1..][j]) {
      assert xs[1..][i] == xs[i + 1] && xs[1..][j] == xs[j + 1];
    }
  }

  /** The first element of an ordered sequence precedes each later one. */
  lemma HeadBefore<T>(le: (T, T) -> bool, xs: seq<T>, z: T)
    requires OrderedBy(le, xs) && |xs| > 0 && z in xs && z != xs[0]
    ensures le(xs[0], z)
  {
    var i :| 0 <= i < |xs| && xs[i] == z;
    assert i > 0;
  }

  /** Two such arrangements start with the same element. */
  lemma SameHead<T>(le: (T, T) -> bool, xs: seq<T>, ys: seq<T>)
    requires OrderedBy(le, xs) && OrderedBy(le, ys)
    requires multiset(xs) == multiset(ys) && |xs| > 0 && |ys| > 0
    requires forall a, b :: a in xs && b in xs && le(a, b) && le(b, a) ==> a == b
    ensures xs[0] == ys[0]
  {
    assert xs[0] in multiset(ys) && ys[0] in multiset(xs);
    if xs[0] != ys[0] {
      HeadBefore(le, xs, ys[0]);
      HeadBefore(le, ys, xs[0]);
    }
  }

  /** Dropping a common head leaves two such arrangements. */
  lemma SameTails<T>(le: (T, T) -> bool, xs: seq<T>, ys: seq<T>)
    requires OrderedBy(le, xs) && OrderedBy(le, ys)
    requires multiset(xs) == multiset(ys) && |xs| > 0 && |ys| > 0 && xs[0] == ys[0]
    requires forall a, b :: a in xs && b in xs && le(a, b) && le(b, a) ==> a == b
    ensures OrderedBy(le, xs[1..]) && OrderedBy(le, ys[1..])
    ensures multiset(xs[1..]) == multiset(ys[1..])
    ensures forall a, b :: a in xs[1..] && b in xs[1..] && le(a, b) && le(b, a) ==> a == b
  {
    TailMultiset(xs);
    TailMultiset(ys);
    OrderedTail(le, xs);
    OrderedTail(le, ys);
    assert forall a | a in xs[1..] :: a in xs;
  }

  /** Two arrangements of the same elements, each ordered under a relation that
      no two different elements satisfy both ways round, are the same sequence:
      such an order leaves the store no choice. */
  lemma {:induction false} OrderedUnique<T>(le: (T, T) -> bool, xs: seq<T>, ys: seq<T>)
    requires OrderedBy(le, xs) && OrderedBy(le, ys)
    requires multiset(xs) == multiset(ys)
    requires forall a, b :: a in xs && b in xs && le(a, b) && le(b, a) ==> a == b
    ensures xs == ys
  {
    if |xs| == 0 {
      assert |ys| == |multiset(ys)| == 0;
    } else {
      assert |ys| == |multiset(ys)| == |multiset(xs)| == |xs|;
      SameHead(le, xs, ys);
      SameTails(le, xs, ys);
      OrderedUnique(le, xs[1..], ys[1..]);
      assert xs == [xs[0]] + xs[1..] && ys == [ys[0]] + ys[1..];
    }
  }
}

=== FILE: text.dfy ===
/** Case folding, substring matching and the lexicographic order on strings.

    Folding is ASCII-only: PostgreSQL's ILIKE and Go's strings.ToUpper also fold
    non-ASCII letters, which this model does not. */
module Text {

  function LowerChar(c: char): char {
    if 'A' <= c <= 'Z' then (c as int + 32) as char else c
  }

  function UpperChar(c: char): char {
    if 'a' <= c <= 'z' then (c as int - 32) as char else c
  }

  function Lower(s: string): (r: string)
    ensures |r| == |s|
  {
    seq(|s|, i requires 0 <= i < |s| => LowerChar(s[i]))
  }

  function Upper(s: string): (r: string)
    ensures |r| == |s|
  {
    seq(|s|, i requires 0 <= i < |s| => UpperChar(s[i]))
  }

  /** `needle` occurs in `hay` starting at position `i`. */
  predicate OccursAt(hay: string, needle: string, i: int) {
    0 <= i <= |hay| - |needle| && hay[i..i + |needle|] == needle
  }

  /** `needle` occurs as a contiguous block of `hay`. */
  predicate Contains(hay: string, needle: string) {
    exists i | 0 <= i <= |hay| - |needle| :: OccursAt(hay, needle, i)
  }

  /** Case-insensitive substring match: ILIKE '%needle%' without wildcard characters. */
  predicate ContainsFold(hay: string, needle: string) {
    Contains(Lower(hay), Lower(needle))
  }

  /** The empty pattern matches every string. */
  lemma EmptyNeedleMatches(hay: string)
    ensures ContainsFold(hay, "")
  {
    assert OccursAt(Lower(hay), Lower(""), 0);
  }

  lemma LowerUpperChar(c: char)
    ensures LowerChar(UpperChar(c)) == LowerChar(c)
    ensures UpperChar(LowerChar(c)) == UpperChar(c)
  {
  }

  lemma LowerOfUpper(s: string)
    ensures Lower(Upper(s)) == Lower(s)
  {
    forall i | 0 <= i < |s| ensures Lower(Upper(s))[i] == Lower(s)[i] {
      LowerUpperChar(s[i]);
    }
  }

  /** The match ignores the letter case of both the text and the pattern. */
  lemma ContainsFoldIgnoresCase(hay: string, needle: string)
    ensures ContainsFold(Upper(hay), needle) == ContainsFold(hay, needle)
    ensures ContainsFold(hay, Upper(needle)) == ContainsFold(hay, needle)
  {
    LowerOfUpper(hay);
    LowerOfUpper(needle);
  }

  /** For an upper-case ASCII letter `u`, a character folds up to `u` exactly when
      it folds down to the matching lower-case letter. */
  lemma FoldLetter(c: char, u: char)
    requires 'A' <= u <= 'Z'
    ensures UpperChar(c) == u <==> LowerChar(c) == LowerChar(u)
  {
  }

  /** A string whose upper-case form is "DESC" is exactly one whose lower-case form is "desc". */
  lemma UpperDescIffLowerDesc(s: string)
    ensures Upper(s) == "DESC" <==> Lower(s) == "desc"
  {
    if |s| == 4 {
      forall i | 0 <= i < 4 ensures Upper(s)[i] == "DESC"[i] <==> Lower(s)[i] == "desc"[i] {
        FoldLetter(s[i], "DESC"[i]);
      }
      assert Upper(s) == "DESC" <==> forall i | 0 <= i < 4 :: Upper(s)[i] == "DESC"[i];
      assert Lower(s) == "desc" <==> forall i | 0 <= i < 4 :: Lower(s)[i] == "desc"[i];
    }
  }

  /** Code-point lexicographic order; PostgreSQL collations are not modelled. */
  predicate LexLeq(a: string, b: string)
    decreases |a|
  {
    |a| == 0 || (|b| > 0 && (a[0] < b[0] || (a[0] == b[0] && LexLeq(a[1..], b[1..]))))
  }

  lemma {:induction false} LexTotal(a: string, b: string)
    ensures LexLeq(a, b) || LexLeq(b, a)
    decreases |a|
  {
    if |a| > 0 && |b| > 0 && a[0] == b[0] {
      LexTotal(a[1..], b[1..]);
    }
  }

  lemma {:induction false} LexTrans(a: string, b: string, c: string)
    requires LexLeq(a, b) && LexLeq(b, c)
    ensures LexLeq(a, c)
    decreases |a|
  {
    if |a| > 0 && a[0] == b[0] && b[0] == c[0] {
      LexTrans(a[1..], b[1..], c[1..]);
    }
  }
}
